=== FILE: README.md ===
# CookMate in Dafny

CookMate is a cooking assistant with three parts:

- `app.js` is a self-contained browser client. It has a built-in recipe catalogue and keeps the pantry, favourites and activity log in browser storage.
- `cookmate-backend/app.py` is a Flask backend over MongoDB. It serves recipes, answers voice transcripts, and stores users, pantry items and favourites.
- `cookmate-backend/static/app.js` is the browser client the backend serves.

This project models the rules inside these three files as pure Dafny functions over immutable data, and proves properties about them.

- **Catalogue** (`catalogue.dfy`). The recipe search of both clients and the recipe-card texts: the ingredient preview, the six featured recipes, and the five-ingredient substitution panel.
- **Substitutions** (`substitutions.dfy`). The local client's first-key-contained lookup. The served client's exact-key lookup, both as written and as intended.
- **LocalStore** (`local_store.dfy`). The local client's state:
  - the bounded activity log,
  - idempotent favourites,
  - the pantry form and the add-from-recipe button,
  - removal by index,
  - the substitution page.
- **Speech** (`speech.dfy`). The speech synthesizer as a queue of utterances, driven by `speak` and `cancel` effects.
- **LocalPlayback** (`local_playback.dfy`). The local client's timed step playback and its stop button.
- **StepPlayer** (`step_player.dfy`). The served client's step narration, a state machine with start, stop, utterance-end and timer events.
- **RecipeApi** (`recipe_api.dfy`). The backend's recipe listing and lookup:
  - name-to-slug ids,
  - time and image field cleaning,
  - defaults for missing fields.
- **Voice** (`voice_api.dfy`). The backend's keyword router for voice transcripts, and what the served client speaks back.
- **Accounts** (`accounts.dfy`). The backend's register/login, pantry and favourites routes. Each MongoDB collection is a sequence of documents.
- **ServedClient** (`client.dfy`). The served client's `currentUser` guards, the sign-in form, the login and registration answers, the favourites page, and end-to-end properties that combine client requests with backend routes.

Helper modules:

- `Base` and `Seqs` (`base.dfy`): option, filter, take, last.
- `Text` (`text.dfy`):
  - ASCII case mapping,
  - JavaScript `trim`,
  - substring search,
  - `join`,
  - Python `str.replace` and `str.title`.
- `Query` (`query.dfy`): how Flask's `request.args.get` reads a query-string value (cut at '&' or '#', then '+' and `%XY` decoded), and JavaScript's `encodeURIComponent`.
- `Numerals` (`numerals.dfy`):
  - decimal and hexadecimal rendering,
  - JavaScript `parseInt`,
  - the `|| 7` expiry default.

Each member below states its contract in the model's own terms. Wherever the source has a defect, the model holds both the code as written and the intended behaviour (see "## Findings").

## Model

| member | source | states |
|---|---|---|
| Catalogue.LocalSearch | app.js:84-94 | a recipe is listed iff it is in the catalogue, its cuisine and difficulty match any non-empty selection, and the lower-cased query is empty or occurs in the lower-cased title or in the space-joined (not lower-cased) ingredients; each kept recipe keeps its multiplicity, and the list is a subsequence of the catalogue |
| Catalogue.ServedSearch | cookmate-backend/static/app.js:170-183 | same as the local search but the joined ingredients are lower-cased too; order-preserving subsequence of the fetched recipes |
| Catalogue.SearchWithoutCriteriaListsAll | app.js:89-93 | with no query and no selection both searches list every recipe, in order |
| Catalogue.LocalMatchImpliesServedMatch | cookmate-backend/static/app.js:181 | every recipe the local filter keeps, the served filter keeps too |
| Catalogue.CapitalisedIngredientOnlyFoundByServedSearch | app.js:92 | the inclusion is strict: an ingredient "Garam" is found by the query "garam" only by the served filter |
| Catalogue.Preview | app.js:102 | the card's ingredient line: the whole ", "-joined list for at most three ingredients; otherwise the first three joined, followed by "..." |
| Catalogue.PreviewIsWholeListIffShort | app.js:102 | the card's ingredient line equals the whole ", "-joined list iff there are at most three ingredients |
| Catalogue.PreviewIsPrefixOfList | cookmate-backend/static/app.js:191 | the text before "..." is a prefix of the whole joined list |
| Catalogue.Featured | cookmate-backend/static/app.js:156 | the home page shows min(6, n) recipes, the first ones, in order |
| Catalogue.SubsPanel | cookmate-backend/static/app.js:375 | the substitution panel lists min(5, n) ingredients, the first ones, in order |
| Substitutions.FirstKey | app.js:215 | the scan returns the first table key from `from` on that occurs in the text, or none when no later key occurs |
| Substitutions.FakeSubstitute | app.js:204-218 | always three suggestions; the list of the first key (in the order milk, egg, butter, paneer, cream, tomato) contained in the lower-cased ingredient; the generic list iff no key occurs |
| Substitutions.FakeSubstituteIgnoresCase | app.js:206 | the lookup gives the same answer for an ingredient and its lower-cased form |
| Substitutions.ButtermilkGetsMilkList | app.js:207-215 | "Buttermilk" contains both "butter" and "milk" and gets the milk list: first key in table order wins |
| Substitutions.FindSubs | cookmate-backend/static/app.js:389-399 | intended lookup: a prompt iff the trimmed query is empty; otherwise the table's own entry for the trimmed lower-cased query, else the single "No substitutions found." entry; never crashes; 1 to 3 items |
| Substitutions.FindSubsAsWritten | cookmate-backend/static/app.js:389-402 | the lookup as written: a prompt iff the trimmed query is empty; a crash iff the trimmed lower-cased query is not an own key but an inherited property name; otherwise the same answer as the intended lookup |
| Substitutions.InheritedNamesAreNotKeys | cookmate-backend/static/app.js:392-398 | neither "constructor" nor "__proto__" is a key of the served table |
| Substitutions.FindSubsAsWrittenCrashesOnlyOnInheritedNames | cookmate-backend/static/app.js:399-402 | the lookup as written crashes exactly for the queries "constructor" and "__proto__" (any case, any padding), and agrees with the intended lookup on every other query |
| Substitutions.ConstructorQueryCrashes | cookmate-backend/static/app.js:399 | the query "constructor" crashes the lookup as written; the intended lookup answers "No substitutions found." |
| Substitutions.FindSubsNormalisesQuery | cookmate-backend/static/app.js:390-399 | the served lookup gives the same answer for a query and its trimmed lower-cased form |
| Substitutions.ServedButtermilk | cookmate-backend/static/app.js:390-399 | the served lookup of "Buttermilk" lists the table's buttermilk entry |
| Substitutions.ClientsDisagreeOnButtermilk | cookmate-backend/static/app.js:393 | for "Buttermilk" the served client gives the buttermilk entry and the local client the milk entry |
| LocalStore.ActivityLog | app.js:330-334 | the new entry is last; below the cap of 200 the log grows by that entry; at the cap the oldest entry is dropped; a log within the cap stays within it |
| LocalStore.LogKeepsLatest | app.js:330-334 | after logging any number of entries into a log within the cap, the log is exactly the latest 200 of all entries, oldest first |
| LocalStore.AddFavorite | app.js:255-259 | no open recipe: nothing changes; otherwise the id is in the favourites afterwards, appended once only when absent, the list stays duplicate-free, the pantry is untouched, and the action is logged |
| LocalStore.AddFavoriteIdempotent | app.js:257 | adding the same favourite twice gives the same list as adding it once |
| LocalStore.AddPantry | app.js:172-180 | refused with an alert iff the trimmed name is empty; otherwise the item (trimmed name, `parseInt(expiry) \|\| 7`) is appended and logged, favourites untouched; never throws |
| LocalStore.AddedPantryItemIsClean | app.js:173-176 | an item the form adds has a non-empty name without white space at either end and a non-zero expiry |
| LocalStore.AddFromRecipe | app.js:245-253 | the typed trimmed name, or else the open recipe's first ingredient, is added with expiry 7 and logged as "Pantry: added" that name; alert iff nothing was typed and there is no open recipe with a non-empty first ingredient; never throws; favourites untouched |
| LocalStore.RemovePantryAt | app.js:188-194 | for an index inside the pantry exactly that item is removed, the others keep their order (and the multiset loses just that item), and the removal is logged; past the end the handler throws and nothing changes |
| LocalStore.AddThenRemoveRestoresPantry | app.js:188-192 | removing the item just added restores the pantry |
| LocalStore.FindSubsLocal | app.js:220-231 | an empty trimmed query is refused; otherwise the three suggestions for the trimmed query are shown and the lookup is logged, pantry and favourites untouched |
| Numerals.ParseInt | app.js:174 | JavaScript `parseInt` after leading white space and one optional sign: NaN for empty text or a first character that is neither a digit nor a sign; otherwise, without a "0x"/"0X" prefix, a number iff a decimal digit follows, valued as the longest decimal digit run; with the prefix, a number iff a hexadecimal digit follows it, valued as the longest hexadecimal run; negated after '-' |
| Numerals.ParseMagnitude | app.js:174 | the digits after the sign: a decimal run, or a hexadecimal run after "0x"/"0X"; none iff no digit starts the run |
| Numerals.ExpiryOrDefault | app.js:174 | the expiry is never 0: 7 when `parseInt` gives NaN or 0, else the parsed number |
| Numerals.ParseIntOfNatToString | app.js:174 | `parseInt` reads back the decimal rendering of every natural number |
| Numerals.ExpiryKeepsPositive | cookmate-backend/static/app.js:243 | a positive number typed as digits is kept as the expiry |
| Numerals.NegativeExpiryKept | app.js:174 | a negative number typed as '-' and digits is kept as the expiry, since it is not falsy |
| Speech.SpeakTextLeavesOneUtterance | cookmate-backend/static/app.js:68-76 | after `speakText(t)` the synthesizer queue is exactly [t], whatever was queued before |
| LocalPlayback.PlayOne | app.js:277-282 | past the last step nothing happens; otherwise it speaks "Step k. text" for the current step, advances by one and schedules one timer; the index never passes the number of steps |
| LocalPlayback.Start | app.js:272-284 | no open recipe: nothing; a recipe with steps: playback restarts at step 1, which is spoken, and one more timer is pending; a recipe without steps: the index resets to 0, nothing is spoken and no timer is added |
| LocalPlayback.Fire | app.js:281 | a pending timer plays the next step if there is one, otherwise just expires |
| LocalPlayback.IndexNeverExceedsSteps | app.js:276-282 | over every sequence of start and stop clicks and timer firings on one recipe, `playIndex` stays at most that recipe's number of steps |
| LocalPlayback.PlayToEnd | app.js:276-284 | left alone, playback speaks "Step k. text" for every step once, in order, and ends with no timer pending |
| LocalPlayback.StopAsWritten | app.js:285 | the stop button as written only cancels the synthesizer: the index and the pending timers stay as they were, nothing is spoken and the synthesizer queue is emptied |
| LocalPlayback.StopAsWrittenKeepsPlaying | app.js:281-285 | start then stop on a two-step recipe: the pending timer still speaks step 2 |
| LocalPlayback.Stop | app.js:285 | the intended stop button also clears the pending timers and speaks nothing |
| LocalPlayback.StopSilencesPlayback | app.js:285 | after the intended stop, any number of timer firings speaks nothing |
| StepPlayer.SpeakNext | cookmate-backend/static/app.js:349-352 | speaks the current step as "Step k: text" iff playing, a recipe is open and a step is left; otherwise a no-op |
| StepPlayer.Start | cookmate-backend/static/app.js:337-342 | no recipe: nothing; otherwise index 0, playing, and the first step is spoken when there is one |
| StepPlayer.Stop | cookmate-backend/static/app.js:344-347 | playing becomes false and the synthesizer is cancelled; the index, the pending utterance end and the pending timers stay |
| StepPlayer.EndOfUtterance | cookmate-backend/static/app.js:356-360 | the index advances by exactly one; while playing with steps left a timer is set; otherwise the completion message is spoken and playing ends |
| StepPlayer.HandleKeepsInv | cookmate-backend/static/app.js:337-363 | every event except a start while something is pending keeps the invariant: index within the steps, at most one utterance or timer pending, a pending utterance is a real step |
| StepPlayer.RunKeepsInv | cookmate-backend/static/app.js:337-363 | along any run that only starts when quiet, the invariant holds and the index never exceeds the number of steps |
| StepPlayer.NarrateAll | cookmate-backend/static/app.js:337-363 | a start followed by every utterance and timer running to its end speaks every step once, in order, then "Recipe steps completed. Enjoy!", and leaves the player idle past the last step |
| StepPlayer.EmptyRecipeLeavesPlaying | cookmate-backend/static/app.js:339-352 | for a recipe without steps, start speaks nothing and leaves the playing flag set |
| StepPlayer.StopThenEndAnnouncesCompletion | cookmate-backend/static/app.js:344-359 | if the stopped step's end event still arrives, the completion message is spoken |
| StepPlayer.DoubleStartSkipsAStep | cookmate-backend/static/app.js:337-358 | two starts before the first step ends, when the second step-1 utterance ends before the first timer fires: step 2 is never spoken and step 3 is spoken twice |
| StepPlayer.DoubleStartDropsLastStep | cookmate-backend/static/app.js:337-358 | two starts before the first step ends, when the first timer fires before the second step-1 utterance ends: step 2 is spoken once, step 3 never, and the completion message follows |
| RecipeApi.Slug | cookmate-backend/app.py:36 | the id has the name's length (lower-casing and space-to-hyphen are per character) |
| RecipeApi.NameFromSlug | cookmate-backend/app.py:52 | the rebuilt name has the id's length |
| RecipeApi.FormatRecipe | cookmate-backend/app.py:34-47 | id is the slug of the name; title and name are the name or ""; difficulty defaults to "Easy"; steps and ingredients default to [] |
| RecipeApi.ListRecipes | cookmate-backend/app.py:30-48 | one formatted recipe per stored document, in stored order |
| RecipeApi.FindFirst | cookmate-backend/app.py:53 | `find_one` returns the first matching document, or none iff nothing matches |
| RecipeApi.GetRecipeAsWritten | cookmate-backend/app.py:50-69 | found iff some document's name equals the title-cased, hyphens-to-spaces id; the found recipe has that name |
| RecipeApi.GetRecipe | cookmate-backend/app.py:50-69 | intended lookup: found iff some document's listed id is the requested id, and the found recipe has that id |
| RecipeApi.SlugShape | cookmate-backend/app.py:36 | ids are lower-case and contain no space |
| RecipeApi.SlugOfNameFromSlug | cookmate-backend/app.py:52 | id to name to id gives the id back iff the id is lower-case and has no space |
| RecipeApi.NameFromSlugOfSlug | cookmate-backend/app.py:36 | for a name without hyphens, name to id to name gives the title-cased name, so it round-trips iff the name is already title-cased |
| RecipeApi.ListedRecipeOpens | cookmate-backend/app.py:57 | every listed recipe can be opened by its id through the intended lookup |
| RecipeApi.ListedRecipeOpensAsWrittenIff | cookmate-backend/app.py:52-55 | a listed recipe without hyphens opens through the route as written iff some document carries its title-cased name |
| RecipeApi.ListedButNotFoundAsWritten | cookmate-backend/app.py:52-55 | such a recipe, when no document carries the title-cased name, gets a 404 as written but is found by the intended lookup |
| RecipeApi.LowerWordIsListedButNotFound | cookmate-backend/app.py:52-55 | a name with a lower-case letter after a space and no hyphen, alone in the collection, is listed but answers 404 as written and is found as intended |
| RecipeApi.PavBhajiIsListedButNotFound | cookmate-backend/app.py:52-55 | "Pav bhaji" is listed as "pav-bhaji" and then answers 404 |
| RecipeApi.TimeFieldStripsMinutes | cookmate-backend/app.py:40 | "<n> mins" is returned as "<n>"; a bare number n as its decimal text |
| RecipeApi.ImagePathRoundTrip | cookmate-backend/app.py:46 | a file stored under "/static/images/" is returned as its file name, and the client's rebuilt path is the stored one; a bare file name is kept |
| Voice.Classify | cookmate-backend/app.py:77-88 | first match wins: list iff "recipe" or "show" occurs; tea iff not those and "tea"; biryani iff none of those and "biryani"; help otherwise |
| Voice.AllNames | cookmate-backend/app.py:79 | all names in stored order, or failure iff some document has no name |
| Voice.DishReply | cookmate-backend/app.py:81-88 | help text when no document has the dish's name; for the first document with the name, a server error iff it lacks `time` or `ingredients`, else the intro, its time, the middle text and its first three ingredients joined by ", " |
| Voice.VoiceCommand | cookmate-backend/app.py:72-89 | help intent gives the help text; list intent fails iff a document has no name, else "I found n recipes: " and the names joined by ", "; the tea intent answers from the first "Tea" document with "Tea recipe: Cook for " and ". Ingredients: ", the biryani intent from the first "Chicken Biryani" document with "Chicken Biryani: Takes " and ". Main ingredients are " |
| Voice.SpokenReply | cookmate-backend/static/app.js:44-47 | an error answer is spoken as the error apology; a non-empty reply is spoken as is; an empty reply is spoken as "Sorry, I did not understand that." |
| Voice.RepliesAreNeverEmpty | cookmate-backend/static/app.js:44 | every reply is non-empty, so the client speaks it as given |
| Voice.VoiceIgnoresCase | cookmate-backend/app.py:75 | a transcript and its lower-cased form get the same answer |
| Voice.TeaWithoutRecipeGetsHelp | cookmate-backend/app.py:81-84 | asking about tea with no "Tea" document gets the help text |
| Voice.SteakAsksAboutTea | cookmate-backend/app.py:81 | keywords are substrings: "steak" is routed to the tea answer |
| Voice.TeaAnswer | cookmate-backend/app.py:81-84 | the tea answer names the first "Tea" document's time and its first three ingredients |
| Voice.BiryaniAnswer | cookmate-backend/app.py:85-88 | the biryani answer fails iff the first "Chicken Biryani" document lacks `time` or `ingredients`; otherwise it names that time and the first three ingredients |
| Accounts.FindUser | cookmate-backend/app.py:97 | the first user with the email, or none iff no user has it |
| Accounts.Register | cookmate-backend/app.py:92-101 | refused (400) iff the email is taken; registered iff it is free and a password was sent, appending exactly one user with the hash; otherwise nothing changes |
| Accounts.Login | cookmate-backend/app.py:103-111 | success iff a user with the email is stored, a password was sent and the hash check accepts it against the first such user's hash; success names the requested email; an unknown email or a rejected password is refused with 401; a stored user with no password sent is a server error |
| Accounts.WrongPasswordRefused | cookmate-backend/app.py:108-111 | after a registration, a password the hash check rejects is refused with 401 |
| Accounts.RegisterKeepsEmailsUnique | cookmate-backend/app.py:97-100 | registration keeps emails unique |
| Accounts.RegisterThenLogin | cookmate-backend/app.py:100-110 | after a successful registration, logging in with the same password succeeds when the hash check accepts it |
| Accounts.RegisterTwiceRefused | cookmate-backend/app.py:97-98 | registering the same email again is refused and changes nothing |
| Accounts.PantryOf | cookmate-backend/app.py:121-124 | exactly the user's stored documents, in stored order, each as its id text, name and expiry |
| Accounts.GetPantry | cookmate-backend/app.py:114-124 | no user (absent or ""): []; otherwise the user's items in stored order with ids as text |
| Accounts.InsertPantry | cookmate-backend/app.py:127-130 | exactly one item is appended, with expiry 7 when none was sent; users and favourites untouched |
| Accounts.PostPantryAsWritten | cookmate-backend/app.py:114-131 | the user is read from the query string only: without it, [] and nothing stored |
| Accounts.PostUser | cookmate-backend/app.py:116 | the intended user: the query string's, else the body's |
| Accounts.PostPantry | cookmate-backend/app.py:114-131 | intended: stores the item for the query or body user; nothing when neither is given |
| Accounts.PantryOfAppend | cookmate-backend/app.py:121 | after an insert, a user's items are the old ones followed by the new one if it is theirs |
| Accounts.PostHiddenFromOthers | cookmate-backend/app.py:116-130 | a POST for one user leaves every other user's pantry listing unchanged |
| Accounts.ClientPantryAdd | cookmate-backend/app.py:116-118 | the served client's body-only POST stores nothing as written; as intended the next GET ends with the new item |
| Accounts.InsertKeepsWellFormed | cookmate-backend/app.py:130 | inserting with a fresh ObjectId keeps every id an ObjectId and all ids distinct |
| Accounts.DeleteFirst | cookmate-backend/app.py:135 | `delete_one` changes nothing when no id matches, and removes one document when one does |
| Accounts.ParseUuid | cookmate-backend/app.py:135 | parses iff the text without hyphens is 32 hexadecimal digits; the UUID is those digits lower-cased |
| Accounts.DeleteKeyAsWritten | cookmate-backend/app.py:135 | an id with "-" is read as a UUID, and the route fails when it is not one; an id without "-" is used as a plain string; the key is never an ObjectId |
| Accounts.DeletePantryAsWritten | cookmate-backend/app.py:133-136 | a hyphenated id that is not a UUID fails the route; otherwise the first pantry document whose id equals that key is deleted and the route answers "Item deleted" |
| Accounts.ParseObjectId | cookmate-backend/app.py:135 | parses iff the text is 24 hexadecimal digits; the ObjectId is their base-16 value, below 16^24 |
| Accounts.DeletePantry | cookmate-backend/app.py:133-136 | intended: the id text is read as an ObjectId and the first item with it is deleted; malformed ids fail |
| Accounts.ParseIdText | cookmate-backend/app.py:123 | reading back the text of an ObjectId gives the ObjectId |
| Accounts.DeleteAsWrittenNeverDeletes | cookmate-backend/app.py:135 | as written, deletion never changes a pantry whose ids are ObjectIds |
| Accounts.DeleteListedItem | cookmate-backend/app.py:135 | as intended, deleting by a listed id removes exactly that item, the rest in order |
| Accounts.DeleteFirstUnique | cookmate-backend/app.py:135 | with distinct ids, deleting item k's id removes item k |
| Accounts.FavoritesOf | cookmate-backend/app.py:146 | exactly the user's stored favourites, in stored order, each as its user and recipe id; all belong to that user |
| Accounts.GetFavorites | cookmate-backend/app.py:139-147 | no user: []; otherwise the user's favourites in stored order |
| Accounts.PostFavoriteAsWritten | cookmate-backend/app.py:141-152 | the user is read from the query string only; with it, exactly one favourite is appended (duplicates allowed) |
| Accounts.PostFavorite | cookmate-backend/app.py:141-152 | intended: the body's user is used when the query has none; as written otherwise |
| Accounts.FavoritesOfAppend | cookmate-backend/app.py:146-151 | after an insert, a user's favourites are the old ones followed by the new one if it is theirs |
| Accounts.ClientFavoriteAdd | cookmate-backend/app.py:141-151 | the served client's body-only POST stores nothing as written; as intended the next GET ends with it |
| ServedClient.FetchPantry | cookmate-backend/static/app.js:199-204 | signed out (null or ""): no request; otherwise one GET for the user |
| ServedClient.FetchFavorites | cookmate-backend/static/app.js:255-260 | signed out: no request; otherwise one GET for the user |
| ServedClient.FetchPantryEncoded | cookmate-backend/static/app.js:199-204 | intended: as `fetchPantry`, with the user URL-encoded into the query |
| ServedClient.FetchesReadUser | cookmate-backend/app.py:116 | the backend reads the signed-in user back from the encoded pantry and favourites GETs; from the unencoded ones only when the email has no '+', '%', '&' or '#' |
| ServedClient.AddPantryClicked | cookmate-backend/static/app.js:241-248 | alert iff the trimmed name is empty; signed in, a POST with the user, trimmed name and parsed expiry in the body, then a GET |
| ServedClient.RemoveClicked | cookmate-backend/static/app.js:235-239 | signed out: nothing; otherwise DELETE by the id, then a GET |
| ServedClient.FavoriteClicked | cookmate-backend/static/app.js:272-276 | nothing without an open recipe or signed out; otherwise a POST with the recipe id, then a GET |
| ServedClient.SignedOutSendsNothing | cookmate-backend/static/app.js:199-270 | signed out, no pantry or favourite action sends a request |
| ServedClient.AuthSubmit | cookmate-backend/static/app.js:296-303 | alert iff the trimmed email or password is empty; otherwise a login or a registration with the trimmed values, by mode |
| ServedClient.LoginAnswered | cookmate-backend/static/app.js:311-317 | on success the current user is the returned email and the pantry and favourites are fetched; otherwise an alert and no change |
| ServedClient.RegisterAnswered | cookmate-backend/static/app.js:326-330 | on success the user is told to log in and the form mode becomes whatever the `toggleAuth` click handler (a parameter) makes of it; otherwise "User exists" and no change |
| ServedClient.FormOnlyLogsIn | cookmate-backend/static/app.js:294-303 | with `isLogin` left at true and a click handler that does not change it, the form stays in login mode and every request it sends is a login |
| ServedClient.RegisterThenSignIn | cookmate-backend/static/app.js:296-330 | if the form is in registration mode and the `toggleAuth` handler switches it to login mode, registering a free email and submitting again sends a login and signs in as the trimmed email |
| ServedClient.AddPantryEndToEnd | cookmate-backend/static/app.js:225-233 | the pantry form end to end: nothing stored as written; as intended the encoded refetch answers the old pantry followed by the trimmed name and parsed expiry, and so does the unencoded refetch when the email has no '+', '%', '&' or '#' |
| ServedClient.RefetchMissesItem | cookmate-backend/static/app.js:201 | with the intended POST, if the backend reads the unencoded email back as a different user, the refetch answers exactly what it answered before the POST |
| ServedClient.PlusInEmailHidesNewItem | cookmate-backend/static/app.js:201 | for an email "a+b" (each part free of '+', '%', '&' and '#') the unencoded refetch after an intended POST answers exactly what it answered before the POST, so the new item is missing |
| ServedClient.RemoveEndToEnd | cookmate-backend/static/app.js:235-239 | the "x" button end to end: as written nothing is removed; as intended exactly that item |
| ServedClient.FavoriteCardAsWritten | cookmate-backend/static/app.js:278-291 | every favourite card shows no title and has no recipe id to open |
| ServedClient.FavoriteCard | cookmate-backend/static/app.js:282-288 | intended: the card shows the title of the listed recipe with the favourite's id and opens that id |
| ServedClient.FavoriteEndToEnd | cookmate-backend/static/app.js:262-291 | favouriting an open recipe: as written the new card is blank; as intended the encoded refetch (and the unencoded one for an email without '+', '%', '&' or '#') ends with a card that opens that recipe's id, which the intended lookup finds |
| ServedClient.AddedFavoriteShowsCard | cookmate-backend/static/app.js:282-288 | a favourite list ending with a listed recipe's id ends with a card that is blank as written and opens that id as intended |
| Query.Decode | cookmate-backend/app.py:116 | a value without '+' or '%' is kept; decoding never lengthens |
| Query.ArgValue | cookmate-backend/app.py:116 | the value is the text up to the first '&' or '#', decoded; a text without '&', '#', '+' or '%' arrives unchanged |
| Query.EndsCutValue | cookmate-backend/app.py:116 | a value without special characters followed by '&' or '#' is read back without the rest of the text |
| Query.Encode | cookmate-backend/static/app.js:201 | the intended encoding of the user, as JavaScript's `encodeURIComponent`: no '&', '#' or '+' in the output; a text of unreserved characters is kept |
| Query.DecodeEncode | cookmate-backend/static/app.js:201 | decoding an encoded text gives it back |
| Query.EncodedValueArrives | cookmate-backend/app.py:116 | the backend reads back exactly the text the client encoded |
| Query.DecodePlainPrefix | cookmate-backend/app.py:116 | a prefix without '+' or '%' is kept by decoding |
| Query.PlusBecomesSpace | cookmate-backend/app.py:116 | an unencoded "a+b" is read as "a b" |

## Left out

- Rendering (`innerHTML`, CSS, `showView`, routing between views), browser storage (`localSave`) and JSON encoding: these are presentation and persistence, not rules.
- Network failures of `fetch`, and the Flask and MongoDB plumbing beyond what each route reads and writes. Each collection is a sequence; `find` keeps stored order.
- The HTTP responses of the account, pantry and favourite routes are kept only as far as they change the database or the client's session.
- Speech recognition. The voice rate (`parseFloat`), pitch and volume of utterances.
- Timer delays (3000 ms, 1000 ms) and the search debounce: timers are events without a time.
- The "Use" button of a local suggestion only alerts and logs, and is not modelled. The search box trims its text before filtering; the search model takes the filter text as given.
- `addRandom` in `app.js`, which uses `Math.random`. The feedback form, which uses `Date.now`. The preferences and admin panels.
- The static image route and the home route of the backend.
- The new document's ObjectId and the password hash are parameters. So is `check_password_hash`: the only property assumed of it is that it accepts the password a hash was made from, and only where a lemma says so.
- Case mapping and white space are modelled for ASCII plus the JavaScript `trim` white-space set. Python `str.title` and `lower` are not modelled beyond ASCII.
- A step navigator with next/back/repeat voice commands does not appear in the source files and is not modelled.
- LocalPlayback.Start: the activity entries "Playback started for …" and "Playback stopped" are not threaded through the playback model. The log itself is modelled by LocalStore.ActivityLog.
- StepPlayer.Run: the recipe is fixed for a whole run. Opening another recipe during narration, which changes the steps `speakNextStep` reads, is not modelled.
- StepPlayer.Stop: whether cancelling fires the current utterance's end event differs between browsers. The model therefore leaves that event possible after a stop rather than deciding it.
- Numerals.ParseInt: integers are unbounded. JavaScript's rounding of numbers above 2^53 is not modelled.
- Accounts.ParseUuid: accepts exactly 32 hexadecimal digits once hyphens are removed. Python's `uuid.UUID` also tolerates braces, a "urn:uuid:" prefix and underscores. Its inner `int(hex, 16)` also accepts surrounding white space, a leading '+' and a "0x" prefix within the 32 characters. None of these is modelled.
- Accounts.InsertPantry: a missing expiry and an explicit JSON `null` expiry are the same in the model, and both store 7. `data.get("expiry", 7)` stores `null` for the latter. The served client always sends a number.
- LocalPlayback.IndexNeverExceedsSteps: the recipe is fixed for a whole run. In the source each start click's timers keep that click's steps while `playIndex` is shared. Starting a second, shorter recipe while the first one's timer is pending can push `playIndex` past the second recipe's steps, and that is not modelled.
- ServedClient.RegisterAnswered: the `toggleAuth` click handler is not part of this model, and `isLogin` is never assigned in the files modelled. The handler's effect on the form mode is therefore a parameter. With it left unchanged the form only ever logs in (ServedClient.FormOnlyLogsIn), and ServedClient.RegisterThenSignIn assumes a handler that switches to login mode.
- ServedClient.LoginAnswered: on a server error the backend answers with an HTML page, so `res.json()` throws and no alert is shown. The model shows the alert instead, and the same holds for ServedClient.RegisterAnswered. The form never sends a missing password, so this answer cannot arise from the form.
- ServedClient.AddPantryEndToEnd: for the request the source actually sends (the email unencoded), the conclusion is stated only for emails without '+', '%', '&' or '#'. The other emails are covered by ServedClient.RefetchMissesItem (see "## Findings").
- ServedClient.FavoriteEndToEnd: likewise, the unencoded refetch is covered only for emails without '+', '%', '&' or '#'.
- Query.ArgValue: a `%XY` escape at or above 0x80 is decoded as one character rather than as part of a UTF-8 sequence, and non-ASCII characters pass through unchanged. The URL parser's removal of tabs, newlines, and trailing control characters and spaces is not modelled.
- Accounts.Register: a request body that is not JSON, and a `null` or non-string field, are not modelled except for a missing password. An email is compared as an optional string, so a missing email and a `null` email are the same.
- RecipeApi.FormatRecipe: a field stored with the wrong type is not modelled, and neither is an explicit `null` (which Python would render as "None"). The contract lists the defaults for name, difficulty, steps and ingredients. Cuisine, alternatives and basic ingredients default the same way, and time and image are covered by their own lemmas.
- Voice.VoiceCommand: a transcript field that is `null`, or a body that is not JSON, is not modelled. A `null` transcript would make `.lower()` fail.

## Findings

| source | as written | input that shows it | evidently intended | confidence | as-written member | corrected member |
|---|---|---|---|---|---|---|
| cookmate-backend/app.py:52-53 | the recipe route turns the id back into a name by title-casing it and looks for that exact name | a recipe named "Pav bhaji" is listed with id "pav-bhaji", and `GET /api/recipes/pav-bhaji` looks for "Pav Bhaji" and answers 404 | every listed id opens its recipe | high, not executed | RecipeApi.GetRecipeAsWritten, RecipeApi.PavBhajiIsListedButNotFound | RecipeApi.GetRecipe, RecipeApi.ListedRecipeOpens |
| cookmate-backend/app.py:135 | an id without "-" is deleted by its plain string, but stored items carry ObjectIds | deleting the 24-digit id a GET listed removes nothing | the listed id is read back as an ObjectId | high, not executed | Accounts.DeletePantryAsWritten, Accounts.DeleteAsWrittenNeverDeletes | Accounts.DeletePantry, Accounts.DeleteListedItem |
| cookmate-backend/app.py:116-118 | POST reads the user from the query string only, while the served client sends it in the JSON body | the pantry form posts `{user: "a@b.c", name: "milk", expiry: 7}` to `/api/pantry`; the answer is [] and nothing is stored | the body's user is used | high, not executed | Accounts.PostPantryAsWritten, Accounts.ClientPantryAdd | Accounts.PostPantry, ServedClient.AddPantryEndToEnd |
| cookmate-backend/app.py:141-143 | the same for favourites | the favourite button posts `{user, recipeId}`; nothing is stored | the body's user is used | high, not executed | Accounts.PostFavoriteAsWritten, Accounts.ClientFavoriteAdd | Accounts.PostFavorite, ServedClient.FavoriteEndToEnd |
| cookmate-backend/static/app.js:399 | the query is looked up as a property of an object literal, which also finds inherited properties | the query "constructor" finds a function, and iterating over it throws | only the table's own keys are found | high, not executed | Substitutions.FindSubsAsWritten, Substitutions.ConstructorQueryCrashes | Substitutions.FindSubs, Substitutions.FindSubsAsWrittenCrashesOnlyOnInheritedNames |
| app.js:281 | the stop button cancels the synthesizer but not the pending timer | start then stop on a two-step recipe; three seconds later step 2 is spoken | stop ends playback | high, not executed | LocalPlayback.StopAsWritten, LocalPlayback.StopAsWrittenKeepsPlaying | LocalPlayback.Stop, LocalPlayback.StopSilencesPlayback |
| cookmate-backend/static/app.js:282-288 | favourite cards read `title`, `img` and `id`, but the favourites route returns only `user` and `recipeId` | any stored favourite renders as "undefined", and clicking it requests `/api/recipes/undefined`, which answers 404 unless a recipe is named "Undefined" | the card shows and opens the favourite's recipe | high, not executed | ServedClient.FavoriteCardAsWritten, ServedClient.FavoriteEndToEnd | ServedClient.FavoriteCard, ServedClient.FavoriteEndToEnd |
| cookmate-backend/static/app.js:201 | the user is put into the `?user=` query unencoded (also at line 257 for favourites), and Flask decodes '+' as a space and stops the value at '&' or '#' | a user "a+b@x.com" adds a pantry item with the POST route fixed; the refetch asks for "a b@x.com" and the new item is missing | the user is URL-encoded, so the backend reads back the same email | medium, not executed | ServedClient.PlusInEmailHidesNewItem, ServedClient.RefetchMissesItem, Query.EndsCutValue | ServedClient.FetchPantryEncoded, Query.EncodedValueArrives |

=== FILE: accounts.dfy ===
/** The backend's account, pantry and favourite routes
    (cookmate-backend/app.py). Each collection is a sequence of documents in
    stored order; `find` keeps that order and `find_one` and `delete_one`
    take the first match. What the database and the libraries compute
    outside this code is passed in: the new document's id, the salted hash
    `generate_password_hash` produces, and `check_password_hash`. */
module Accounts {
  import opened Base
  import opened Seqs
  import Text
  import Numerals

  // ---------------------------------------------------------------------
  // Documents

  /** A document id: an ObjectId (a 96-bit number), a UUID (by its 32
      lower-case hexadecimal digits) or a plain string. */
  datatype DocId = ObjectId(value: nat) | UuidId(hex: string) | TextId(text: string)

  /** ObjectIds are 12-byte numbers. */
  const ObjectIdBound: nat := Numerals.Pow(16, 24)

  datatype UserDoc = UserDoc(email: Option<string>, password: string)

  datatype PantryDoc = PantryDoc(id: DocId, user: string, name: Option<string>, expiry: int)

  datatype FavoriteDoc = FavoriteDoc(id: DocId, user: string, recipeId: Option<string>)

  datatype Db = Db(users: seq<UserDoc>, pantry: seq<PantryDoc>, favorites: seq<FavoriteDoc>)

  /** Every id the routes create is an ObjectId, and no two are equal. */
  predicate WellFormed(db: Db) {
    (forall i :: 0 <= i < |db.pantry| ==> db.pantry[i].id.ObjectId? && db.pantry[i].id.value < ObjectIdBound)
    && (forall i, j :: 0 <= i < j < |db.pantry| ==> db.pantry[i].id != db.pantry[j].id)
  }

  /** `str(ObjectId)`: 24 lower-case hexadecimal digits. */
  function IdText(id: DocId): (text: string)
    ensures id.ObjectId? ==> |text| == 24 && Numerals.AllHexDigits(text)
  {
    match id
    case ObjectId(n) => Numerals.HexDigits(n, 24)
    case UuidId(h) => h
    case TextId(t) => t
  }

  // ---------------------------------------------------------------------
  // Registration and login

  datatype AuthReply =
    | Registered
    | LoggedIn(email: Option<string>)
    | Refused(status: nat, error: string)
    | ServerError

  /** The first user with this email (`find_one`). */
  function FindUser(users: seq<UserDoc>, email: Option<string>): (k: Option<nat>)
    ensures k.Some? ==> k.value < |users| && users[k.value].email == email
    ensures k.Some? ==> forall j :: 0 <= j < k.value ==> users[j].email != email
    ensures k.None? ==> forall j :: 0 <= j < |users| ==> users[j].email != email
    decreases |users|
  {
    if users == [] then None
    else if users[0].email == email then Some(0)
    else match FindUser(users[1..], email)
      case None => None
      case Some(k) => Some(k + 1)
  }

  /** `POST /api/auth/register`: refused with 400 when the email is taken;
      otherwise the user is stored with the password's hash `hashed`.
      Hashing a missing password fails. */
  function Register(db: Db, email: Option<string>, pass: Option<string>, hashed: string)
    : (r: (Db, AuthReply))
    ensures r.1 == Refused(400, "User already exists") <==> FindUser(db.users, email).Some?
    ensures r.1 == Registered <==> FindUser(db.users, email).None? && pass.Some?
    ensures r.1 == Registered ==> r.0 == db.(users := db.users + [UserDoc(email, hashed)])
    ensures r.1 != Registered ==> r.0 == db
  {
    if FindUser(db.users, email).Some? then (db, Refused(400, "User already exists"))
    else if pass.None? then (db, ServerError)
    else (db.(users := db.users + [UserDoc(email, hashed)]), Registered)
  }

  /** `POST /api/auth/login`: accepted when the first user with the email
      exists and `check` accepts the password against the stored hash;
      otherwise refused with 401. */
  function Login(db: Db, email: Option<string>, pass: Option<string>, check: (string, string) -> bool)
    : (r: AuthReply)
    ensures r.LoggedIn? ==> r.email == email
    ensures r.LoggedIn?
            <==> FindUser(db.users, email).Some? && pass.Some?
                 && check(db.users[FindUser(db.users, email).value].password, pass.value)
    ensures FindUser(db.users, email).None? ==> r == Refused(401, "Invalid credentials")
    ensures FindUser(db.users, email).Some? && pass.Some?
            && !check(db.users[FindUser(db.users, email).value].password, pass.value)
            ==> r == Refused(401, "Invalid credentials")
    ensures r.ServerError? <==> FindUser(db.users, email).Some? && pass.None?
  {
    match FindUser(db.users, email)
    case None => Refused(401, "Invalid credentials")
    case Some(k) =>
      if pass.None? then ServerError
      else if check(db.users[k].password, pass.value) then LoggedIn(email)
      else Refused(401, "Invalid credentials")
  }

  /** No two users share an email. */
  predicate UniqueEmails(users: seq<UserDoc>) {
    forall i, j :: 0 <= i < j < |users| ==> users[i].email != users[j].email
  }

  /** Registration keeps emails unique. */
  lemma RegisterKeepsEmailsUnique(db: Db, email: Option<string>, pass: Option<string>, hashed: string)
    requires UniqueEmails(db.users)
    ensures UniqueEmails(Register(db, email, pass, hashed).0.users)
  {
  }

  /** After registering, logging in with the same password succeeds,
      given that the hash check accepts the password the hash was made from. */
  lemma RegisterThenLogin(db: Db, email: Option<string>, pass: string, hashed: string,
                          check: (string, string) -> bool)
    requires Register(db, email, Some(pass), hashed).1 == Registered
    requires check(hashed, pass)
    ensures Login(Register(db, email, Some(pass), hashed).0, email, Some(pass), check) == LoggedIn(email)
  {
    var after := Register(db, email, Some(pass), hashed).0;
    assert after.users[|db.users|] == UserDoc(email, hashed);
    assert FindUser(after.users, email) == Some(|db.users|);
  }

  /** A password the hash check rejects for the stored user is refused,
      even right after that user registered. */
  lemma WrongPasswordRefused(db: Db, email: Option<string>, pass: string, hashed: string,
                             attempt: string, check: (string, string) -> bool)
    requires Register(db, email, Some(pass), hashed).1 == Registered
    requires !check(hashed, attempt)
    ensures Login(Register(db, email, Some(pass), hashed).0, email, Some(attempt), check)
            == Refused(401, "Invalid credentials")
  {
    var after := Register(db, email, Some(pass), hashed).0;
    assert after.users[|db.users|] == UserDoc(email, hashed);
    assert FindUser(after.users, email) == Some(|db.users|);
  }

  /** Registering the same email twice: the second attempt is refused and
      changes nothing. */
  lemma RegisterTwiceRefused(db: Db, email: Option<string>, p1: string, h1: string,
                             p2: Option<string>, h2: string)
    requires Register(db, email, Some(p1), h1).1 == Registered
    ensures var after := Register(db, email, Some(p1), h1).0;
            Register(after, email, p2, h2) == (after, Refused(400, "User already exists"))
  {
    var after := Register(db, email, Some(p1), h1).0;
    assert after.users[|db.users|].email == email;
  }

  // ---------------------------------------------------------------------
  // Pantry

  /** What the pantry and favourite routes answer. */
  datatype ListReply<T> = Listed(items: seq<T>) | Message(text: string)

  /** A pantry item as `GET /api/pantry` returns it, with its id as text. */
  datatype PantryJson = PantryJson(id: string, name: Option<string>, expiry: int)

  /** The JSON body of a POST; absent fields are `None`. */
  datatype PantryBody = PantryBody(user: Option<string>, name: Option<string>, expiry: Option<int>)

  /** `not user` in Python: absent or empty. */
  predicate NoUser(user: Option<string>) {
    user.None? || user.value == ""
  }

  /** The stored pantry documents of `user`, in stored order
      (`find({"user": user})`). */
  function ItemsOf(pantry: seq<PantryDoc>, user: string): (docs: seq<PantryDoc>)
    ensures forall d :: d in docs <==> d in pantry && d.user == user
  {
    Filter(pantry, PantryOwner(user))
  }

  /** The query `{"user": user}` on pantry documents. */
  function PantryOwner(user: string): PantryDoc -> bool {
    (d: PantryDoc) => d.user == user
  }

  /** A pantry document as the route returns it, with its id as text. */
  function ToJson(d: PantryDoc): PantryJson {
    PantryJson(IdText(d.id), d.name, d.expiry)
  }

  /** The listing of `user`'s pantry: exactly their documents, in stored
      order, each with its id as text. */
  function PantryOf(pantry: seq<PantryDoc>, user: string): (items: seq<PantryJson>)
    ensures items == Jsons(ItemsOf(pantry, user))
    decreases |pantry|
  {
    if pantry == [] then []
    else
      var d := pantry[0];
      var head := if d.user == user then [d] else [];
      var rest := PantryOf(pantry[1..], user);
      ItemsOfCons(pantry, user);
      JsonsAppend(head, ItemsOf(pantry[1..], user));
      Jsons(head) + rest
  }

  /** Each document as the route returns it, in order. */
  function Jsons(docs: seq<PantryDoc>): (items: seq<PantryJson>)
    ensures |items| == |docs|
  {
    seq(|docs|, i requires 0 <= i < |docs| => ToJson(docs[i]))
  }

  lemma JsonsAppend(a: seq<PantryDoc>, b: seq<PantryDoc>)
    ensures Jsons(a + b) == Jsons(a) + Jsons(b)
  {
  }

  lemma JsonsOfOne(d: PantryDoc)
    ensures Jsons([d]) == [ToJson(d)] && Jsons([]) == []
  {
  }

  /** `GET /api/pantry?user=...`: nothing without a user. */
  function GetPantry(db: Db, queryUser: Option<string>): (r: ListReply<PantryJson>)
    ensures NoUser(queryUser) ==> r == Listed([])
    ensures !NoUser(queryUser) ==> r == Listed(PantryOf(db.pantry, queryUser.value))
  {
    if NoUser(queryUser) then Listed([]) else Listed(PantryOf(db.pantry, queryUser.value))
  }

  /** Stores one pantry item for `user`: the expiry defaults to 7. */
  function InsertPantry(db: Db, user: string, body: PantryBody, newId: nat): (r: Db)
    ensures r.pantry == db.pantry + [PantryDoc(ObjectId(newId), user, body.name, body.expiry.GetOr(7))]
    ensures r.users == db.users && r.favorites == db.favorites
  {
    db.(pantry := db.pantry + [PantryDoc(ObjectId(newId), user, body.name, body.expiry.GetOr(7))])
  }

  /** `POST /api/pantry` as written: the user is read from the query
      string only, so a body that carries the user stores nothing. */
  function PostPantryAsWritten(db: Db, queryUser: Option<string>, body: PantryBody, newId: nat)
    : (r: (Db, ListReply<PantryJson>))
    ensures NoUser(queryUser) ==> r == (db, Listed([]))
    ensures !NoUser(queryUser) ==> r == (InsertPantry(db, queryUser.value, body, newId), Message("Item added"))
  {
    if NoUser(queryUser) then (db, Listed([]))
    else (InsertPantry(db, queryUser.value, body, newId), Message("Item added"))
  }

  /** The user a POST is for, as intended: the query string's, or else the
      body's. */
  function PostUser(queryUser: Option<string>, body: PantryBody): (user: Option<string>)
    ensures !NoUser(queryUser) ==> user == queryUser
    ensures NoUser(queryUser) ==> user == body.user
  {
    if !NoUser(queryUser) then queryUser else body.user
  }

  /** `POST /api/pantry` as intended: the user may come with the body. */
  function PostPantry(db: Db, queryUser: Option<string>, body: PantryBody, newId: nat)
    : (r: (Db, ListReply<PantryJson>))
    ensures NoUser(PostUser(queryUser, body)) ==> r == (db, Listed([]))
    ensures !NoUser(PostUser(queryUser, body))
            ==> r == (InsertPantry(db, PostUser(queryUser, body).value, body, newId), Message("Item added"))
  {
    var user := PostUser(queryUser, body);
    if NoUser(user) then (db, Listed([]))
    else (InsertPantry(db, user.value, body, newId), Message("Item added"))
  }

  /** A user's documents, one stored document at a time. */
  lemma ItemsOfCons(pantry: seq<PantryDoc>, user: string)
    requires pantry != []
    ensures ItemsOf(pantry, user)
            == (if pantry[0].user == user then [pantry[0]] else []) + ItemsOf(pantry[1..], user)
  {
    assert PantryOwner(user)(pantry[0]) == (pantry[0].user == user);
  }

  lemma ItemsOfAppend(pantry: seq<PantryDoc>, d: PantryDoc, user: string)
    ensures ItemsOf(pantry + [d], user) == ItemsOf(pantry, user) + (if d.user == user then [d] else [])
  {
    FilterAppend(pantry, [d], PantryOwner(user));
    FilterSingleton(d, PantryOwner(user));
  }

  /** The listing after an insert: the old listing, then the new item if
      it belongs to the user asked for. */
  lemma PantryOfAppend(pantry: seq<PantryDoc>, d: PantryDoc, user: string)
    ensures PantryOf(pantry + [d], user)
            == PantryOf(pantry, user) + (if d.user == user then [ToJson(d)] else [])
  {
    ItemsOfAppend(pantry, d, user);
    JsonsAppend(ItemsOf(pantry, user), if d.user == user then [d] else []);
    JsonsOfOne(d);
  }

  /** An item posted for one user never shows in another user's pantry. */
  lemma PostHiddenFromOthers(db: Db, body: PantryBody, newId: nat, other: string)
    requires !NoUser(body.user) && other != body.user.value
    ensures GetPantry(PostPantry(db, None, body, newId).0, Some(other)) == GetPantry(db, Some(other))
  {
    var d := PantryDoc(ObjectId(newId), body.user.value, body.name, body.expiry.GetOr(7));
    assert PostPantry(db, None, body, newId).0.pantry == db.pantry + [d];
    PantryOfAppend(db.pantry, d, other);
  }

  /** The served client sends the user in the body only. As written the
      item is not stored; as intended it is, and the next GET lists it. */
  lemma ClientPantryAdd(db: Db, user: string, name: string, expiry: int, newId: nat)
    requires user != ""
    ensures var body := PantryBody(Some(user), Some(name), Some(expiry));
            PostPantryAsWritten(db, None, body, newId) == (db, Listed([]))
    ensures var body := PantryBody(Some(user), Some(name), Some(expiry));
            var after := PostPantry(db, None, body, newId).0;
            GetPantry(after, Some(user))
            == Listed(PantryOf(db.pantry, user) + [PantryJson(IdText(ObjectId(newId)), Some(name), expiry)])
  {
    var body := PantryBody(Some(user), Some(name), Some(expiry));
    PantryOfAppend(db.pantry, PantryDoc(ObjectId(newId), user, Some(name), expiry), user);
  }

  /** A new ObjectId that no stored item has keeps the pantry well formed. */
  lemma InsertKeepsWellFormed(db: Db, user: string, body: PantryBody, newId: nat)
    requires WellFormed(db)
    requires newId < ObjectIdBound
    requires forall i :: 0 <= i < |db.pantry| ==> db.pantry[i].id != ObjectId(newId)
    ensures WellFormed(InsertPantry(db, user, body, newId))
  {
  }

  // ---------------------------------------------------------------------
  // Deleting a pantry item

  datatype DeleteReply = Deleted | DeleteFailed

  /** Removes the first document whose id is `key` (`delete_one`); the
      others keep their order. */
  function DeleteFirst(pantry: seq<PantryDoc>, key: DocId): (r: seq<PantryDoc>)
    ensures (forall i :: 0 <= i < |pantry| ==> pantry[i].id != key) ==> r == pantry
    ensures (exists i :: 0 <= i < |pantry| && pantry[i].id == key) ==> |r| == |pantry| - 1
    decreases |pantry|
  {
    if pantry == [] then []
    else if pantry[0].id == key then pantry[1..]
    else [pantry[0]] + DeleteFirst(pantry[1..], key)
  }

  /** `uuid.UUID(text)`: the 32 hexadecimal digits left after removing the
      hyphens, or `None` when they are not 32 hexadecimal digits. */
  function ParseUuid(text: string): (u: Option<string>)
    ensures var digits := Filter(text, (c: char) => c != '-');
            u.Some? <==> |digits| == 32 && Numerals.AllHexDigits(digits)
    ensures u.Some? ==> u.value == Text.Lower(Filter(text, (c: char) => c != '-'))
    ensures u.Some? ==> |u.value| == 32 && Text.IsLowered(u.value)
  {
    var digits := Filter(text, (c: char) => c != '-');
    Text.LowerIsLowered(digits);
    if |digits| == 32 && Numerals.AllHexDigits(digits) then Some(Text.Lower(digits)) else None
  }

  /** The key the route as written deletes by: a UUID when the id has a
      hyphen, otherwise the id text itself. A hyphenated id that is not a
      UUID makes the route fail. */
  function DeleteKeyAsWritten(id: string): (k: Option<DocId>)
    ensures (forall i :: 0 <= i < |id| ==> id[i] != '-') ==> k == Some(TextId(id))
    ensures '-' in id ==> k == (if ParseUuid(id).Some? then Some(UuidId(ParseUuid(id).value)) else None)
    ensures k.Some? ==> !k.value.ObjectId?
  {
    if '-' in id then
      match ParseUuid(id)
      case None => None
      case Some(h) => Some(UuidId(h))
    else Some(TextId(id))
  }

  /** `DELETE /api/pantry/<id>` as written. */
  function DeletePantryAsWritten(db: Db, id: string): (r: (Db, DeleteReply))
    ensures DeleteKeyAsWritten(id).None? ==> r == (db, DeleteFailed)
    ensures DeleteKeyAsWritten(id).Some?
            ==> r == (db.(pantry := DeleteFirst(db.pantry, DeleteKeyAsWritten(id).value)), Deleted)
  {
    match DeleteKeyAsWritten(id)
    case None => (db, DeleteFailed)
    case Some(key) => (db.(pantry := DeleteFirst(db.pantry, key)), Deleted)
  }

  /** `ObjectId(text)`: exactly 24 hexadecimal digits. */
  function ParseObjectId(text: string): (n: Option<nat>)
    ensures n.Some? <==> |text| == 24 && Numerals.AllHexDigits(text)
    ensures n.Some? ==> n.value == Numerals.DigitsValue(text, 16) && n.value < ObjectIdBound
  {
    if |text| == 24 && Numerals.AllHexDigits(text) then
      Numerals.ValueBelowPow(text, 16);
      Some(Numerals.DigitsValue(text, 16))
    else None
  }

  /** `DELETE /api/pantry/<id>` as intended: the id text is read back as
      the ObjectId it was written from. */
  function DeletePantry(db: Db, id: string): (r: (Db, DeleteReply))
    ensures ParseObjectId(id).None? ==> r == (db, DeleteFailed)
    ensures ParseObjectId(id).Some?
            ==> r == (db.(pantry := DeleteFirst(db.pantry, ObjectId(ParseObjectId(id).value))), Deleted)
  {
    match ParseObjectId(id)
    case None => (db, DeleteFailed)
    case Some(n) => (db.(pantry := DeleteFirst(db.pantry, ObjectId(n))), Deleted)
  }

  /** Reading back the text of an ObjectId gives the ObjectId. */
  lemma ParseIdText(n: nat)
    requires n < ObjectIdBound
    ensures ParseObjectId(IdText(ObjectId(n))) == Some(n)
  {
    Numerals.ValueOfHexDigits(n, 24);
  }

  /** As written, deleting never removes anything from a pantry whose ids
      are all ObjectIds, which are all the routes create. */
  lemma DeleteAsWrittenNeverDeletes(db: Db, id: string)
    requires WellFormed(db)
    ensures DeletePantryAsWritten(db, id).0 == db
  {
  }

  /** As intended, deleting by the id a GET listed removes exactly that
      item, and the others keep their order. */
  lemma DeleteListedItem(db: Db, k: nat)
    requires WellFormed(db)
    requires k < |db.pantry|
    ensures DeletePantry(db, IdText(db.pantry[k].id)).0.pantry == db.pantry[..k] + db.pantry[k + 1..]
  {
    ParseIdText(db.pantry[k].id.value);
    DeleteFirstUnique(db.pantry, k);
  }

  /** With distinct ids, deleting the id of item `k` removes item `k`. */
  lemma {:induction false} DeleteFirstUnique(pantry: seq<PantryDoc>, k: nat)
    requires k < |pantry|
    requires forall i, j :: 0 <= i < j < |pantry| ==> pantry[i].id != pantry[j].id
    ensures DeleteFirst(pantry, pantry[k].id) == pantry[..k] + pantry[k + 1..]
    decreases k
  {
    if k > 0 {
      DeleteFirstUnique(pantry[1..], k - 1);
      assert pantry[1..][k - 1] == pantry[k];
      assert pantry[0].id != pantry[k].id;
      assert pantry[1..][..k - 1] + pantry[1..][k..] == pantry[1..k] + pantry[k + 1..];
      assert [pantry[0]] + pantry[1..k] == pantry[..k];
    }
  }

  // ---------------------------------------------------------------------
  // Favourites

  /** A favourite as `GET /api/favorites` returns it: without its id. */
  datatype FavoriteJson = FavoriteJson(user: string, recipeId: Option<string>)

  datatype FavoriteBody = FavoriteBody(user: Option<string>, recipeId: Option<string>)

  /** The stored favourites of `user`, in stored order. */
  function FavoriteDocsOf(favorites: seq<FavoriteDoc>, user: string): (docs: seq<FavoriteDoc>)
    ensures forall d :: d in docs <==> d in favorites && d.user == user
  {
    Filter(favorites, FavoriteOwner(user))
  }

  /** The query `{"user": user}` on favourite documents. */
  function FavoriteOwner(user: string): FavoriteDoc -> bool {
    (d: FavoriteDoc) => d.user == user
  }

  /** The listing of `user`'s favourites: exactly their documents, in
      stored order, without their ids. */
  function FavoritesOf(favorites: seq<FavoriteDoc>, user: string): (items: seq<FavoriteJson>)
    ensures items == FavoriteJsons(FavoriteDocsOf(favorites, user))
    ensures forall f :: f in items ==> f.user == user
    decreases |favorites|
  {
    if favorites == [] then []
    else
      var d := favorites[0];
      var head := if d.user == user then [d] else [];
      var rest := FavoritesOf(favorites[1..], user);
      FavoriteDocsOfCons(favorites, user);
      FavoriteJsonsAppend(head, FavoriteDocsOf(favorites[1..], user));
      FavoriteJsons(head) + rest
  }

  /** Each favourite as the route returns it (without its id), in order. */
  function FavoriteJsons(docs: seq<FavoriteDoc>): (items: seq<FavoriteJson>)
    ensures |items| == |docs|
  {
    seq(|docs|, i requires 0 <= i < |docs| => FavoriteJson(docs[i].user, docs[i].recipeId))
  }

  lemma FavoriteJsonsAppend(a: seq<FavoriteDoc>, b: seq<FavoriteDoc>)
    ensures FavoriteJsons(a + b) == FavoriteJsons(a) + FavoriteJsons(b)
  {
  }

  lemma FavoriteJsonsOfOne(d: FavoriteDoc)
    ensures FavoriteJsons([d]) == [FavoriteJson(d.user, d.recipeId)] && FavoriteJsons([]) == []
  {
  }

  /** `GET /api/favorites?user=...`: nothing without a user. */
  function GetFavorites(db: Db, queryUser: Option<string>): (r: ListReply<FavoriteJson>)
    ensures NoUser(queryUser) ==> r == Listed([])
    ensures !NoUser(queryUser) ==> r == Listed(FavoritesOf(db.favorites, queryUser.value))
  {
    if NoUser(queryUser) then Listed([]) else Listed(FavoritesOf(db.favorites, queryUser.value))
  }

  /** `POST /api/favorites` as written: the user is read from the query
      string only. Adding the same recipe twice stores it twice. */
  function PostFavoriteAsWritten(db: Db, queryUser: Option<string>, body: FavoriteBody, newId: nat)
    : (r: (Db, ListReply<FavoriteJson>))
    ensures NoUser(queryUser) ==> r == (db, Listed([]))
    ensures !NoUser(queryUser)
            ==> r.0 == db.(favorites := db.favorites + [FavoriteDoc(ObjectId(newId), queryUser.value, body.recipeId)])
  {
    if NoUser(queryUser) then (db, Listed([]))
    else
      (db.(favorites := db.favorites + [FavoriteDoc(ObjectId(newId), queryUser.value, body.recipeId)]),
       Message("Favorite added"))
  }

  /** `POST /api/favorites` as intended: the user may come with the body. */
  function PostFavorite(db: Db, queryUser: Option<string>, body: FavoriteBody, newId: nat)
    : (r: (Db, ListReply<FavoriteJson>))
    ensures NoUser(queryUser) && NoUser(body.user) ==> r == (db, Listed([]))
    ensures !NoUser(queryUser) ==> r == PostFavoriteAsWritten(db, queryUser, body, newId)
    ensures NoUser(queryUser) && !NoUser(body.user)
            ==> r.0.favorites == db.favorites + [FavoriteDoc(ObjectId(newId), body.user.value, body.recipeId)]
  {
    var user := if !NoUser(queryUser) then queryUser else body.user;
    PostFavoriteAsWritten(db, user, body, newId)
  }

  lemma FavoriteDocsOfCons(favorites: seq<FavoriteDoc>, user: string)
    requires favorites != []
    ensures FavoriteDocsOf(favorites, user)
            == (if favorites[0].user == user then [favorites[0]] else []) + FavoriteDocsOf(favorites[1..], user)
  {
    assert FavoriteOwner(user)(favorites[0]) == (favorites[0].user == user);
  }

  lemma FavoriteDocsOfAppend(favorites: seq<FavoriteDoc>, d: FavoriteDoc, user: string)
    ensures FavoriteDocsOf(favorites + [d], user)
            == FavoriteDocsOf(favorites, user) + (if d.user == user then [d] else [])
  {
    FilterAppend(favorites, [d], FavoriteOwner(user));
    FilterSingleton(d, FavoriteOwner(user));
  }

  /** The favourites listing after an insert: the old listing, then the
      new favourite if it belongs to the user asked for. */
  lemma FavoritesOfAppend(favorites: seq<FavoriteDoc>, d: FavoriteDoc, user: string)
    ensures FavoritesOf(favorites + [d], user)
            == FavoritesOf(favorites, user) + (if d.user == user then [FavoriteJson(d.user, d.recipeId)] else [])
  {
    FavoriteDocsOfAppend(favorites, d, user);
    FavoriteJsonsAppend(FavoriteDocsOf(favorites, user), if d.user == user then [d] else []);
    FavoriteJsonsOfOne(d);
  }

  /** The served client's favourite button sends the user in the body. As
      written nothing is stored; as intended the next GET ends with it. */
  lemma ClientFavoriteAdd(db: Db, user: string, recipeId: string, newId: nat)
    requires user != ""
    ensures PostFavoriteAsWritten(db, None, FavoriteBody(Some(user), Some(recipeId)), newId).0 == db
    ensures var after := PostFavorite(db, None, FavoriteBody(Some(user), Some(recipeId)), newId).0;
            GetFavorites(after, Some(user))
            == Listed(FavoritesOf(db.favorites, user) + [FavoriteJson(user, Some(recipeId))])
  {
    FavoritesOfAppend(db.favorites, FavoriteDoc(ObjectId(newId), user, Some(recipeId)), user);
  }
}

=== FILE: base.dfy ===
/** Small value types shared by every part of the model. */
module Base {

  /** A value that may be missing: a JavaScript `null`/`undefined`, or a
      key absent from a Python dictionary or a MongoDB document. */
  datatype Option<+T> = None | Some(value: T) {

    /** The value, or `default` when it is missing (`dict.get(key, default)`). */
    function GetOr(default: T): T {
      match this
      case Some(v) => v
      case None => default
    }
  }
}

/** Sequence helpers: order-preserving filtering, prefixes and suffixes. */
module Seqs {

  /** `a` can be obtained from `b` by deleting elements, keeping the order. */
  predicate IsSubsequence<T(==)>(a: seq<T>, b: seq<T>)
    decreases |b|
  {
    if a == [] then true
    else if b == [] then false
    else if a[0] == b[0] then IsSubsequence(a[1..], b[1..])
    else IsSubsequence(a, b[1..])
  }

  /** `Array.prototype.filter`: the elements of `xs` satisfying `p`, in order. */
  function Filter<T(==,!new)>(xs: seq<T>, p: T -> bool): (r: seq<T>)
    ensures |r| <= |xs|
    ensures forall x :: x in r <==> x in xs && p(x)
    ensures forall x :: multiset(r)[x] == if p(x) then multiset(xs)[x] else 0
    ensures IsSubsequence(r, xs)
    decreases |xs|
  {
    if xs == [] then []
    else
      var rest := Filter(xs[1..], p);
      assert xs == [xs[0]] + xs[1..];
      if p(xs[0]) then [xs[0]] + rest else rest
  }

  /** Filtering a concatenation filters each part. */
  lemma {:induction false} FilterAppend<T(!new)>(xs: seq<T>, ys: seq<T>, p: T -> bool)
    ensures Filter(xs + ys, p) == Filter(xs, p) + Filter(ys, p)
    decreases |xs|
  {
    if xs == [] {
      assert xs + ys == ys;
    } else {
      assert (xs + ys)[0] == xs[0] && (xs + ys)[1..] == xs[1..] + ys;
      FilterAppend(xs[1..], ys, p);
    }
  }

  /** Filtering a single element keeps it iff it satisfies `p`. */
  lemma FilterSingleton<T(!new)>(x: T, p: T -> bool)
    ensures Filter([x], p) == if p(x) then [x] else []
  {
    assert [x][1..] == [];
  }

  function Min(a: int, b: int): int { if a <= b then a else b }

  /** `xs.slice(0, n)`: at most the first `n` elements. */
  function Take<T>(xs: seq<T>, n: nat): (r: seq<T>)
    ensures |r| == Min(n, |xs|)
    ensures r == xs[..|r|]
  {
    xs[..Min(n, |xs|)]
  }

  /** The last `n` elements of `xs`, or all of them when there are fewer. */
  function Last<T>(xs: seq<T>, n: nat): (r: seq<T>)
    ensures |r| == Min(n, |xs|)
    ensures r == xs[|xs| - |r|..]
  {
    xs[|xs| - Min(n, |xs|)..]
  }

  /** Taking a suffix of a suffix: only the final `n` elements matter. */
  lemma LastOfAppend<T>(xs: seq<T>, ys: seq<T>, n: nat)
    ensures Last(Last(xs, n) + ys, n) == Last(xs + ys, n)
  {
    var a := Last(xs, n);
    var k := |xs| - |a|;
    assert xs == xs[..k] + a;
    assert xs + ys == xs[..k] + (a + ys);
  }
}

=== FILE: catalogue.dfy ===
/** Recipe search and recipe-card text in the two browser clients: the
    local client with a built-in catalogue (app.js) and the client served by
    the backend (cookmate-backend/static/app.js). */
module Catalogue {
  import opened Seqs
  import Text

  /** A recipe as the clients hold it (the fields the rules below read). */
  datatype Recipe = Recipe(
    id: string,
    title: string,
    cuisine: string,
    difficulty: string,
    ingredients: seq<string>,
    steps: seq<string>)

  /** The cuisine and difficulty selectors: an empty selection accepts all. */
  predicate Selected(choice: string, value: string) {
    choice == "" || value == choice
  }

  /** The local client's filter, given the already lower-cased query `q`:
      the title is lower-cased before the containment test, the
      space-joined ingredients are not. */
  predicate LocalMatch(r: Recipe, cuisine: string, difficulty: string, q: string) {
    Selected(cuisine, r.cuisine)
    && Selected(difficulty, r.difficulty)
    && (q == ""
        || Text.Contains(Text.Lower(r.title), q)
        || Text.Contains(Text.Join(r.ingredients, " "), q))
  }

  /** The served client's filter: both the title and the joined
      ingredients are lower-cased before the containment test. */
  predicate ServedMatch(r: Recipe, cuisine: string, difficulty: string, q: string) {
    Selected(cuisine, r.cuisine)
    && Selected(difficulty, r.difficulty)
    && (q == ""
        || Text.Contains(Text.Lower(r.title), q)
        || Text.Contains(Text.Lower(Text.Join(r.ingredients, " ")), q))
  }

  /** The recipes the local client lists for a search text and the two
      selectors: exactly the matching ones, in catalogue order. */
  function LocalSearch(catalogue: seq<Recipe>, cuisine: string, difficulty: string, filter: string)
    : (shown: seq<Recipe>)
    ensures forall r :: r in shown <==> r in catalogue && LocalMatch(r, cuisine, difficulty, Text.Lower(filter))
    ensures forall r :: multiset(shown)[r]
                        == if LocalMatch(r, cuisine, difficulty, Text.Lower(filter)) then multiset(catalogue)[r] else 0
    ensures IsSubsequence(shown, catalogue)
  {
    Filter(catalogue, (r: Recipe) => LocalMatch(r, cuisine, difficulty, Text.Lower(filter)))
  }

  /** The recipes the served client lists: exactly the matching ones, in
      the order the backend returned them. */
  function ServedSearch(recipes: seq<Recipe>, cuisine: string, difficulty: string, filter: string)
    : (shown: seq<Recipe>)
    ensures forall r :: r in shown <==> r in recipes && ServedMatch(r, cuisine, difficulty, Text.Lower(filter))
    ensures forall r :: multiset(shown)[r]
                        == if ServedMatch(r, cuisine, difficulty, Text.Lower(filter)) then multiset(recipes)[r] else 0
    ensures IsSubsequence(shown, recipes)
  {
    Filter(recipes, (r: Recipe) => ServedMatch(r, cuisine, difficulty, Text.Lower(filter)))
  }

  /** With no search text and no selection every recipe is listed. */
  lemma {:induction false} SearchWithoutCriteriaListsAll(catalogue: seq<Recipe>)
    ensures LocalSearch(catalogue, "", "", "") == catalogue
    ensures ServedSearch(catalogue, "", "", "") == catalogue
  {
    var p := (r: Recipe) => LocalMatch(r, "", "", Text.Lower(""));
    var p' := (r: Recipe) => ServedMatch(r, "", "", Text.Lower(""));
    FilterKeepsAll(catalogue, p);
    FilterKeepsAll(catalogue, p');
  }

  lemma {:induction false} FilterKeepsAll<T(!new)>(xs: seq<T>, p: T -> bool)
    requires forall x :: x in xs ==> p(x)
    ensures Filter(xs, p) == xs
    decreases |xs|
  {
    if xs != [] {
      FilterKeepsAll(xs[1..], p);
    }
  }

  /** The served client's search is at least as permissive as the local
      client's: lower-casing the joined ingredients only adds matches. */
  lemma LocalMatchImpliesServedMatch(r: Recipe, cuisine: string, difficulty: string, filter: string)
    requires LocalMatch(r, cuisine, difficulty, Text.Lower(filter))
    ensures ServedMatch(r, cuisine, difficulty, Text.Lower(filter))
  {
    var q := Text.Lower(filter);
    var joined := Text.Join(r.ingredients, " ");
    if q != "" && !Text.Contains(Text.Lower(r.title), q) {
      var i :| 0 <= i <= |joined| - |q| && Text.OccursAt(joined, q, i);
      Text.OccursAtLower(joined, q, i);
      Text.LowerIdempotent(filter);
    }
  }

  /** ... and strictly more permissive: a capitalised ingredient is found
      by the served client but not by the local one. */
  lemma CapitalisedIngredientOnlyFoundByServedSearch()
    ensures var r := Recipe("r9", "Curry", "Indian", "Easy", ["Garam"], []);
            ServedMatch(r, "", "", Text.Lower("garam")) && !LocalMatch(r, "", "", Text.Lower("garam"))
  {
    var r := Recipe("r9", "Curry", "Indian", "Easy", ["Garam"], []);
    assert Text.Lower("garam") == "garam";
    assert Text.Lower("Garam") == "garam";
    assert Text.OccursAt(Text.Lower("Garam"), "garam", 0);
    assert Text.Lower("Curry") == "curry";
    assert "curry"[0..5][0] != "garam"[0];
    assert "Garam"[0..5][0] != "garam"[0];
  }

  // ---------------------------------------------------------------------
  // Recipe cards

  /** The ingredient line of a recipe card: the first three ingredients
      joined by ", ", followed by "..." when some were left out. */
  function Preview(ingredients: seq<string>): (text: string)
    ensures |ingredients| <= 3 ==> text == Text.Join(ingredients, ", ")
    ensures |ingredients| > 3
            ==> |text| >= 3 && text[|text| - 3..] == "..."
                && text[..|text| - 3] == Text.Join(ingredients[..3], ", ")
  {
    assert |ingredients| <= 3 ==> Take(ingredients, 3) == ingredients;
    Text.Join(Take(ingredients, 3), ", ") + (if |ingredients| > 3 then "..." else "")
  }

  /** Joining splits at any interior position into two joins. */
  lemma {:induction false} JoinSplit(xs: seq<string>, sep: string, k: nat)
    requires 0 < k < |xs|
    ensures Text.Join(xs, sep) == Text.Join(xs[..k], sep) + sep + Text.Join(xs[k..], sep)
    decreases k
  {
    if k > 1 {
      JoinSplit(xs[1..], sep, k - 1);
      assert xs[1..][..k - 1] == xs[1..k];
      assert xs[1..][k - 1..] == xs[k..];
      assert xs[..k][1..] == xs[1..k];
    }
  }

  /** The card shows the whole ingredient list exactly when there are at
      most three ingredients; otherwise it shows the first three and marks
      the cut with "...". */
  lemma PreviewIsWholeListIffShort(ingredients: seq<string>)
    ensures Preview(ingredients) == Text.Join(ingredients, ", ") <==> |ingredients| <= 3
  {
    if |ingredients| > 3 {
      var head := Text.Join(ingredients[..3], ", ");
      JoinSplit(ingredients, ", ", 3);
      var whole := Text.Join(ingredients, ", ");
      assert whole[|head|] == ',';
      assert Preview(ingredients)[|head|] == '.';
    } else {
      assert Take(ingredients, 3) == ingredients;
    }
  }

  /** What the card shows before the "..." is the start of the full list. */
  lemma PreviewIsPrefixOfList(ingredients: seq<string>)
    ensures var shown := Text.Join(Take(ingredients, 3), ", ");
            var whole := Text.Join(ingredients, ", ");
            |shown| <= |whole| && shown == whole[..|shown|]
  {
    if |ingredients| > 3 {
      JoinSplit(ingredients, ", ", 3);
    } else {
      assert Take(ingredients, 3) == ingredients;
    }
  }

  /** The served client's home page shows at most the first six recipes. */
  function Featured(recipes: seq<Recipe>): (shown: seq<Recipe>)
    ensures |shown| == if |recipes| < 6 then |recipes| else 6
    ensures forall i :: 0 <= i < |shown| ==> shown[i] == recipes[i]
  {
    Take(recipes, 6)
  }

  /** The served client's substitution panel lists at most the first five
      ingredients of the open recipe. */
  function SubsPanel(r: Recipe): (listed: seq<string>)
    ensures |listed| == if |r.ingredients| < 5 then |r.ingredients| else 5
    ensures forall i :: 0 <= i < |listed| ==> listed[i] == r.ingredients[i]
  {
    Take(r.ingredients, 5)
  }
}

=== FILE: client.dfy ===
/** The served client's account-bound actions
    (cookmate-backend/static/app.js): the `currentUser` guard in front of
    every pantry and favourite request, the sign-in form, the handling of
    the login and registration answers, and the favourites page; and how
    these meet the backend routes. */
module ServedClient {
  import opened Base
  import Text
  import Numerals
  import RecipeApi
  import Accounts
  import Query

  /** `state.currentUser` and whether the form is in login mode. */
  datatype Session = Session(currentUser: Option<string>, loginMode: bool)

  /** The requests the client sends. A `GET` carries the text the client
      writes after `?user=` in the URL. */
  datatype Request =
    | GetPantry(query: string)
    | PostPantry(body: Accounts.PantryBody)
    | DeletePantry(id: string)
    | GetFavorites(query: string)
    | PostFavorite(favorite: Accounts.FavoriteBody)
    | LoginRequest(email: string, pass: string)
    | RegisterRequest(email: string, pass: string)

  /** `!state.currentUser`: null and "" are both falsy. */
  predicate SignedIn(s: Session) {
    s.currentUser.Some? && s.currentUser.value != ""
  }

  // ---------------------------------------------------------------------
  // Guarded requests

  /** `fetchPantry` / `fetchFavorites`: nothing unless signed in; the user
      goes into the URL as it is, without encoding. */
  function FetchPantry(s: Session): (reqs: seq<Request>)
    ensures !SignedIn(s) ==> reqs == []
    ensures SignedIn(s) ==> reqs == [GetPantry(s.currentUser.value)]
  {
    if SignedIn(s) then [GetPantry(s.currentUser.value)] else []
  }

  function FetchFavorites(s: Session): (reqs: seq<Request>)
    ensures !SignedIn(s) ==> reqs == []
    ensures SignedIn(s) ==> reqs == [GetFavorites(s.currentUser.value)]
  {
    if SignedIn(s) then [GetFavorites(s.currentUser.value)] else []
  }

  /** The fetches as intended: the user goes through `encodeURIComponent`. */
  function FetchPantryEncoded(s: Session): (reqs: seq<Request>)
    ensures !SignedIn(s) ==> reqs == []
    ensures SignedIn(s) ==> reqs == [GetPantry(Query.Encode(s.currentUser.value))]
  {
    if SignedIn(s) then [GetPantry(Query.Encode(s.currentUser.value))] else []
  }

  function FetchFavoritesEncoded(s: Session): (reqs: seq<Request>)
    ensures !SignedIn(s) ==> reqs == []
    ensures SignedIn(s) ==> reqs == [GetFavorites(Query.Encode(s.currentUser.value))]
  {
    if SignedIn(s) then [GetFavorites(Query.Encode(s.currentUser.value))] else []
  }

  /** What `GET /api/pantry?user=<query>` answers: the route sees the
      value Flask reads back from the query text. */
  function PantryAnswer(db: Accounts.Db, query: string): Accounts.ListReply<Accounts.PantryJson> {
    Accounts.GetPantry(db, Some(Query.ArgValue(query)))
  }

  /** What `GET /api/favorites?user=<query>` answers. */
  function FavoritesAnswer(db: Accounts.Db, query: string): Accounts.ListReply<Accounts.FavoriteJson> {
    Accounts.GetFavorites(db, Some(Query.ArgValue(query)))
  }

  /** Every signed-in user's own pantry and favourites come back from the
      encoded fetches; the unencoded ones agree with them exactly when no
      character of the user is read differently. */
  lemma FetchesReadUser(db: Accounts.Db, s: Session)
    requires SignedIn(s)
    ensures var user := s.currentUser.value;
            PantryAnswer(db, FetchPantryEncoded(s)[0].query) == Accounts.GetPantry(db, Some(user))
            && FavoritesAnswer(db, FetchFavoritesEncoded(s)[0].query)
               == Accounts.GetFavorites(db, Some(user))
    ensures var user := s.currentUser.value;
            Query.NoSpecial(user)
            ==> PantryAnswer(db, FetchPantry(s)[0].query) == Accounts.GetPantry(db, Some(user))
                && FavoritesAnswer(db, FetchFavorites(s)[0].query)
                   == Accounts.GetFavorites(db, Some(user))
  {
    Query.EncodedValueArrives(s.currentUser.value);
  }

  /** What a click leads to: an alert, or the requests sent. */
  datatype Click = Alert(message: string) | Send(requests: seq<Request>)

  /** The pantry form: an empty trimmed name is refused; the expiry is
      `parseInt(...) || 7`; the item is posted with the user in the body,
      then the pantry is fetched again. Signed out, nothing is sent. */
  function AddPantryClicked(s: Session, nameInput: string, expiryInput: string): (c: Click)
    ensures c.Alert? <==> Text.Trim(nameInput) == ""
    ensures c.Send? && !SignedIn(s) ==> c.requests == []
    ensures c.Send? && SignedIn(s)
            ==> c.requests
                == [PostPantry(Accounts.PantryBody(s.currentUser, Some(Text.Trim(nameInput)),
                                                   Some(Numerals.ExpiryOrDefault(expiryInput)))),
                    GetPantry(s.currentUser.value)]
  {
    var name := Text.Trim(nameInput);
    if name == "" then Alert("Enter ingredient")
    else if !SignedIn(s) then Send([])
    else Send([PostPantry(Accounts.PantryBody(s.currentUser, Some(name),
                                              Some(Numerals.ExpiryOrDefault(expiryInput))))]
              + FetchPantry(s))
  }

  /** The "x" button of a listed item: delete it by its id, then fetch. */
  function RemoveClicked(s: Session, id: string): (reqs: seq<Request>)
    ensures !SignedIn(s) ==> reqs == []
    ensures SignedIn(s) ==> reqs == [DeletePantry(id), GetPantry(s.currentUser.value)]
  {
    if SignedIn(s) then [DeletePantry(id)] + FetchPantry(s) else []
  }

  /** The favourite button: nothing without an open recipe; the alert is
      shown whether or not a request is sent. */
  function FavoriteClicked(s: Session, selected: Option<RecipeApi.RecipeJson>): (reqs: seq<Request>)
    ensures selected.None? || !SignedIn(s) ==> reqs == []
    ensures selected.Some? && SignedIn(s)
            ==> reqs == [PostFavorite(Accounts.FavoriteBody(s.currentUser, Some(selected.value.id))),
                         GetFavorites(s.currentUser.value)]
  {
    if selected.None? || !SignedIn(s) then []
    else [PostFavorite(Accounts.FavoriteBody(s.currentUser, Some(selected.value.id)))] + FetchFavorites(s)
  }

  /** Every request but sign-in is for the signed-in user only: signed
      out, the pantry and favourite actions send nothing. */
  lemma SignedOutSendsNothing(s: Session, nameInput: string, expiryInput: string, id: string,
                              selected: Option<RecipeApi.RecipeJson>)
    requires !SignedIn(s)
    ensures FetchPantry(s) == [] && FetchFavorites(s) == []
    ensures RemoveClicked(s, id) == [] && FavoriteClicked(s, selected) == []
    ensures AddPantryClicked(s, nameInput, expiryInput) in {Alert("Enter ingredient"), Send([])}
  {
  }

  // ---------------------------------------------------------------------
  // Signing in

  /** The sign-in form: both trimmed fields must be non-empty; then a
      login or a registration is sent, depending on the mode. */
  function AuthSubmit(s: Session, emailInput: string, passInput: string): (c: Click)
    ensures c.Alert? <==> Text.Trim(emailInput) == "" || Text.Trim(passInput) == ""
    ensures c.Send? && s.loginMode
            ==> c.requests == [LoginRequest(Text.Trim(emailInput), Text.Trim(passInput))]
    ensures c.Send? && !s.loginMode
            ==> c.requests == [RegisterRequest(Text.Trim(emailInput), Text.Trim(passInput))]
  {
    var email := Text.Trim(emailInput);
    var pass := Text.Trim(passInput);
    if email == "" || pass == "" then Alert("Enter email & password")
    else if s.loginMode then Send([LoginRequest(email, pass)])
    else Send([RegisterRequest(email, pass)])
  }

  /** The login answer: on success the user is the email the server
      returned, and the pantry and favourites are fetched; otherwise an
      alert. */
  function LoginAnswered(s: Session, reply: Accounts.AuthReply): (r: (Session, Click))
    ensures reply.LoggedIn? ==> r.0.currentUser == reply.email
    ensures reply.LoggedIn? && SignedIn(r.0)
            ==> r.1 == Send([GetPantry(reply.email.value), GetFavorites(reply.email.value)])
    ensures !reply.LoggedIn? ==> r == (s, Alert("Invalid credentials"))
  {
    if reply.LoggedIn? then
      var s' := s.(currentUser := reply.email);
      var reqs := FetchPantry(s') + FetchFavorites(s');
      assert SignedIn(s') ==> reqs == [GetPantry(reply.email.value), GetFavorites(reply.email.value)];
      (s', Send(reqs))
    else (s, Alert("Invalid credentials"))
  }

  /** The registration answer: on success an alert, then a click on the
      `toggleAuth` element. That element's click handler is not part of
      this model, so its effect on the login mode is the parameter
      `toggle`; the user and everything else stay as they were. */
  function RegisterAnswered(s: Session, reply: Accounts.AuthReply, toggle: bool -> bool)
    : (r: (Session, Click))
    ensures reply.Registered?
            ==> r.0 == Session(s.currentUser, toggle(s.loginMode))
                && r.1 == Alert("Registered! Please login.")
    ensures !reply.Registered? ==> r == (s, Alert("User exists"))
  {
    if reply.Registered? then (s.(loginMode := toggle(s.loginMode)), Alert("Registered! Please login."))
    else (s, Alert("User exists"))
  }

  /** The form as shown: `isLogin` starts true and no code here assigns
      it, so with a toggle that leaves it alone every submission of a
      filled form is a login request, and a registration is never sent. */
  lemma FormOnlyLogsIn(s: Session, reply: Accounts.AuthReply, emailInput: string, passInput: string)
    requires s.loginMode
    ensures var (s', _) := RegisterAnswered(s, reply, (b: bool) => b);
            s'.loginMode
            && (AuthSubmit(s', emailInput, passInput).Send?
                ==> forall r :: r in AuthSubmit(s', emailInput, passInput).requests ==> r.LoginRequest?)
  {
    var (s', _) := RegisterAnswered(s, reply, (b: bool) => b);
    assert s'.loginMode;
  }

  /** Registering through the form and then logging in with the same
      typed values signs the user in as the trimmed email, provided the
      toggle switches the form from registration to login. */
  lemma RegisterThenSignIn(db: Accounts.Db, s: Session, emailInput: string, passInput: string,
                           hashed: string, check: (string, string) -> bool, toggle: bool -> bool)
    requires !s.loginMode && toggle(false)
    requires AuthSubmit(s, emailInput, passInput).Send?
    requires Accounts.FindUser(db.users, Some(Text.Trim(emailInput))).None?
    requires check(hashed, Text.Trim(passInput))
    ensures var email := Text.Trim(emailInput);
            var pass := Text.Trim(passInput);
            var (db', reg) := Accounts.Register(db, Some(email), Some(pass), hashed);
            var (s', _) := RegisterAnswered(s, reg, toggle);
            AuthSubmit(s', emailInput, passInput) == Send([LoginRequest(email, pass)])
            && LoginAnswered(s', Accounts.Login(db', Some(email), Some(pass), check)).0.currentUser
               == Some(email)
  {
    var email := Text.Trim(emailInput);
    var pass := Text.Trim(passInput);
    Accounts.RegisterThenLogin(db, Some(email), pass, hashed, check);
  }

  // ---------------------------------------------------------------------
  // Serving the requests

  /** The backend's answer to one request and the database after it;
      `fixed` selects the intended routes, `newId` is the id a new document
      gets. Only the effect on the database is kept here. */
  function Serve(db: Accounts.Db, req: Request, newId: nat, fixed: bool): Accounts.Db {
    match req
    case PostPantry(body) =>
      if fixed then Accounts.PostPantry(db, None, body, newId).0
      else Accounts.PostPantryAsWritten(db, None, body, newId).0
    case DeletePantry(id) =>
      if fixed then Accounts.DeletePantry(db, id).0 else Accounts.DeletePantryAsWritten(db, id).0
    case PostFavorite(favorite) =>
      if fixed then Accounts.PostFavorite(db, None, favorite, newId).0
      else Accounts.PostFavoriteAsWritten(db, None, favorite, newId).0
    case _ => db
  }

  /** The pantry form end to end. As written, the item never reaches the
      database; as intended, the pantry fetched right after ends with it,
      named by the trimmed input and with the parsed expiry, when the
      refetch reads the user back: always with the encoded fetch, and with
      the fetch as written when the user has no '&', '#', '+' or '%'. */
  lemma AddPantryEndToEnd(db: Accounts.Db, s: Session, nameInput: string, expiryInput: string, newId: nat)
    requires SignedIn(s) && Text.Trim(nameInput) != ""
    ensures var c := AddPantryClicked(s, nameInput, expiryInput);
            c.Send? && |c.requests| == 2 && Serve(db, c.requests[0], newId, false) == db
    ensures var c := AddPantryClicked(s, nameInput, expiryInput);
            var after := Serve(db, c.requests[0], newId, true);
            var user := s.currentUser.value;
            var expected := Accounts.Listed(Accounts.PantryOf(db.pantry, user)
                              + [Accounts.PantryJson(Accounts.IdText(Accounts.ObjectId(newId)),
                                                     Some(Text.Trim(nameInput)),
                                                     Numerals.ExpiryOrDefault(expiryInput))]);
            PantryAnswer(after, FetchPantryEncoded(s)[0].query) == expected
            && (Query.NoSpecial(user) ==> PantryAnswer(after, c.requests[1].query) == expected)
  {
    var c := AddPantryClicked(s, nameInput, expiryInput);
    var after := Serve(db, c.requests[0], newId, true);
    Accounts.ClientPantryAdd(db, s.currentUser.value, Text.Trim(nameInput),
                             Numerals.ExpiryOrDefault(expiryInput), newId);
    FetchesReadUser(after, s);
  }

  /** Whenever the server reads back a different user from the refetch
      than the one the item was stored for, the refetch after the pantry
      form (with the intended POST) shows the same list as before: the
      new item is missing. */
  lemma RefetchMissesItem(db: Accounts.Db, s: Session, nameInput: string, expiryInput: string,
                          newId: nat)
    requires SignedIn(s) && Text.Trim(nameInput) != ""
    requires Query.ArgValue(s.currentUser.value) != s.currentUser.value
    ensures var c := AddPantryClicked(s, nameInput, expiryInput);
            var after := Serve(db, c.requests[0], newId, true);
            PantryAnswer(after, c.requests[1].query) == PantryAnswer(db, c.requests[1].query)
  {
    var user := s.currentUser.value;
    var c := AddPantryClicked(s, nameInput, expiryInput);
    var body := Accounts.PantryBody(s.currentUser, Some(Text.Trim(nameInput)),
                                    Some(Numerals.ExpiryOrDefault(expiryInput)));
    assert c.requests[0] == PostPantry(body) && c.requests[1].query == user;
    Accounts.PostHiddenFromOthers(db, body, newId, Query.ArgValue(user));
  }

  /** With a '+' in the email, the pantry form still looks broken once the
      POST route is fixed: the refetch asks for the user with a space in
      place of the '+', and shows the same list as before the item was
      added. */
  lemma PlusInEmailHidesNewItem(db: Accounts.Db, s: Session, nameInput: string, expiryInput: string,
                                newId: nat, a: string, b: string)
    requires s.currentUser == Some(a + "+" + b) && Query.NoSpecial(a) && Query.NoSpecial(b)
    requires Text.Trim(nameInput) != ""
    ensures var c := AddPantryClicked(s, nameInput, expiryInput);
            var after := Serve(db, c.requests[0], newId, true);
            PantryAnswer(after, c.requests[1].query) == PantryAnswer(db, c.requests[1].query)
  {
    var user := a + "+" + b;
    Query.PlusBecomesSpace(a, b);
    assert user[|a|] == '+' && (a + " " + b)[|a|] == ' ';
    RefetchMissesItem(db, s, nameInput, expiryInput, newId);
  }

  /** The "x" button end to end on a well-formed pantry: as written the
      item stays; as intended exactly that item goes. */
  lemma RemoveEndToEnd(db: Accounts.Db, s: Session, k: nat, newId: nat)
    requires SignedIn(s) && Accounts.WellFormed(db) && k < |db.pantry|
    ensures var reqs := RemoveClicked(s, Accounts.IdText(db.pantry[k].id));
            Serve(db, reqs[0], newId, false) == db
            && Serve(db, reqs[0], newId, true).pantry == db.pantry[..k] + db.pantry[k + 1..]
  {
    Accounts.DeleteAsWrittenNeverDeletes(db, Accounts.IdText(db.pantry[k].id));
    Accounts.DeleteListedItem(db, k);
  }

  // ---------------------------------------------------------------------
  // The favourites page

  /** A favourite card: the title it shows and the id it opens; `None`
      stands for `undefined`. */
  datatype Card = Card(title: Option<string>, opens: Option<string>)

  /** A favourite as the page's script sees it: an object holding the
      fields the route returned. */
  function FavoriteObject(f: Accounts.FavoriteJson): map<string, string> {
    var fields := map["user" := f.user];
    if f.recipeId.Some? then fields["recipeId" := f.recipeId.value] else fields
  }

  /** Reading a property of an object: `undefined` when it has none. */
  function Field(obj: map<string, string>, key: string): Option<string> {
    if key in obj then Some(obj[key]) else None
  }

  /** The card as written reads `title` and `id` from the favourite, which
      only has `user` and `recipeId`: every card is blank and opens
      nothing. */
  function FavoriteCardAsWritten(f: Accounts.FavoriteJson): (c: Card)
    ensures c == Card(None, None)
  {
    var obj := FavoriteObject(f);
    Card(Field(obj, "title"), Field(obj, "id"))
  }

  /** The first listed recipe with this id. */
  function FindListed(recipes: seq<RecipeApi.RecipeJson>, id: string): (k: Option<nat>)
    ensures k.Some? ==> k.value < |recipes| && recipes[k.value].id == id
    ensures k.None? ==> forall j :: 0 <= j < |recipes| ==> recipes[j].id != id
    decreases |recipes|
  {
    if recipes == [] then None
    else if recipes[0].id == id then Some(0)
    else match FindListed(recipes[1..], id)
      case None => None
      case Some(k) => Some(k + 1)
  }

  /** The card as intended: the favourite's recipe is looked up among the
      listed recipes by its id. */
  function FavoriteCard(f: Accounts.FavoriteJson, recipes: seq<RecipeApi.RecipeJson>): (c: Card)
    ensures f.recipeId.None? ==> c == Card(None, None)
    ensures f.recipeId.Some? && FindListed(recipes, f.recipeId.value).Some?
            ==> c.opens == f.recipeId
                && c.title == Some(recipes[FindListed(recipes, f.recipeId.value).value].title)
  {
    if f.recipeId.None? then Card(None, None)
    else match FindListed(recipes, f.recipeId.value)
      case None => Card(None, None)
      case Some(k) => Card(Some(recipes[k].title), Some(recipes[k].id))
  }

  /** The favourites list ends with a card that opens the recipe `id`. */
  predicate EndsWithCardFor(reply: Accounts.ListReply<Accounts.FavoriteJson>,
                            listed: seq<RecipeApi.RecipeJson>, id: string) {
    reply.Listed?
    && var favs := reply.items;
    |favs| > 0
    && FavoriteCardAsWritten(favs[|favs| - 1]) == Card(None, None)
    && FavoriteCard(favs[|favs| - 1], listed).opens == Some(id)
  }

  /** Favouriting an open recipe, end to end through the intended routes:
      the last favourite fetched shows a card that opens a recipe with the
      same id, whose lookup succeeds. This holds for the encoded refetch,
      and for the refetch as written when the user has no '&', '#', '+' or
      '%'. As written the card is blank. */
  lemma FavoriteEndToEnd(docs: seq<RecipeApi.RecipeDoc>, db: Accounts.Db, s: Session, i: nat, newId: nat)
    requires SignedIn(s) && i < |docs|
    ensures var listed := RecipeApi.ListRecipes(docs);
            var after := Serve(db, FavoriteClicked(s, Some(listed[i]))[0], newId, true);
            EndsWithCardFor(FavoritesAnswer(after, FetchFavoritesEncoded(s)[0].query), listed, listed[i].id)
    ensures var listed := RecipeApi.ListRecipes(docs);
            var reqs := FavoriteClicked(s, Some(listed[i]));
            var after := Serve(db, reqs[0], newId, true);
            Query.NoSpecial(s.currentUser.value)
            ==> EndsWithCardFor(FavoritesAnswer(after, reqs[1].query), listed, listed[i].id)
    ensures var listed := RecipeApi.ListRecipes(docs);
            RecipeApi.GetRecipe(docs, listed[i].id).Found?
  {
    var listed := RecipeApi.ListRecipes(docs);
    var user := s.currentUser.value;
    var reqs := FavoriteClicked(s, Some(listed[i]));
    var body := Accounts.FavoriteBody(Some(user), Some(listed[i].id));
    assert reqs[0] == PostFavorite(body);
    var after := Accounts.PostFavorite(db, None, body, newId).0;
    assert Serve(db, reqs[0], newId, true) == after;
    Accounts.ClientFavoriteAdd(db, user, listed[i].id, newId);
    AddedFavoriteShowsCard(listed, Accounts.FavoritesOf(db.favorites, user), user, i);
    FetchesReadUser(after, s);
    RecipeApi.ListedRecipeOpens(docs, i);
  }

  /** A listing that ends with a favourite of listed recipe `i` ends with
      a card for that recipe. */
  lemma AddedFavoriteShowsCard(listed: seq<RecipeApi.RecipeJson>, prior: seq<Accounts.FavoriteJson>,
                               user: string, i: nat)
    requires i < |listed|
    ensures EndsWithCardFor(Accounts.Listed(prior + [Accounts.FavoriteJson(user, Some(listed[i].id))]),
                            listed, listed[i].id)
  {
    var favs := prior + [Accounts.FavoriteJson(user, Some(listed[i].id))];
    assert favs[|favs| - 1] == Accounts.FavoriteJson(user, Some(listed[i].id));
    var k := FindListed(listed, listed[i].id);
    assert k.Some?;
  }
}

=== FILE: local_playback.dfy ===
/** The local client's step playback (app.js): the start button reads the
    open recipe's steps one by one, each followed by a timer that reads the
    next one; the stop button cancels the synthesizer. Timers are events:
    `timers` counts the ones scheduled and not yet fired, and the delay
    itself is not modelled. */
module LocalPlayback {
  import opened Base
  import opened Speech
  import Numerals

  /** `playIndex` and the number of pending timers. */
  datatype Player = Player(index: nat, timers: nat)

  datatype Event = Started | Stopped | TimerFired

  const Idle: Player := Player(0, 0)

  /** What is read out for step `i` (0-based). */
  function Announcement(i: nat, step: string): string {
    "Step " + Numerals.NatToString(i + 1) + ". " + step
  }

  /** The announcements of all of `steps`, in order. */
  function Announcements(steps: seq<string>): (texts: seq<string>)
    ensures |texts| == |steps|
    ensures forall i :: 0 <= i < |steps| ==> texts[i] == Announcement(i, steps[i])
  {
    seq(|steps|, i requires 0 <= i < |steps| => Announcement(i, steps[i]))
  }

  /** `playOne`: past the last step it does nothing; otherwise it reads the
      current step, advances, and schedules a timer. It never reads past
      the end and never moves the index past the number of steps. */
  function PlayOne(p: Player, steps: seq<string>): (r: (Player, seq<Effect>))
    ensures p.index >= |steps| ==> r == (p, [])
    ensures p.index < |steps|
            ==> r.0 == Player(p.index + 1, p.timers + 1)
                && r.1 == [Speak(Announcement(p.index, steps[p.index]))]
    ensures p.index <= |steps| ==> r.0.index <= |steps|
  {
    if p.index >= |steps| then (p, [])
    else (Player(p.index + 1, p.timers + 1), [Speak(Announcement(p.index, steps[p.index]))])
  }

  /** The start button: without an open recipe nothing happens; otherwise
      the index is reset and the first step is played. */
  function Start(p: Player, selected: Option<seq<string>>): (r: (Player, seq<Effect>))
    ensures selected.None? ==> r == (p, [])
    ensures selected.Some? && |selected.value| > 0
            ==> r.0.index == 1 && Spoken(r.1) == [Announcement(0, selected.value[0])]
    ensures selected.Some? && |selected.value| > 0 ==> r.0.timers == p.timers + 1
    ensures selected.Some? && |selected.value| == 0 ==> r == (Player(0, p.timers), [])
  {
    match selected
    case None => (p, [])
    case Some(steps) => PlayOne(Player(0, p.timers), steps)
  }

  /** A timer fires: it plays the next step if there is one. */
  function Fire(p: Player, steps: seq<string>): (r: (Player, seq<Effect>))
    ensures p.timers == 0 ==> r == (p, [])
    ensures p.timers > 0 && p.index >= |steps| ==> r == (p.(timers := p.timers - 1), [])
    ensures p.timers > 0 && p.index < |steps|
            ==> r.0 == Player(p.index + 1, p.timers)
                && r.1 == [Speak(Announcement(p.index, steps[p.index]))]
  {
    if p.timers == 0 then (p, [])
    else
      var q := p.(timers := p.timers - 1);
      if q.index < |steps| then PlayOne(q, steps) else (q, [])
  }

  /** The stop button as written: it only cancels the synthesizer, and the
      pending timer still plays the next step. */
  function StopAsWritten(p: Player): (r: (Player, seq<Effect>))
    ensures r.0 == p
    ensures Spoken(r.1) == [] && forall q :: Apply(q, r.1) == []
  {
    (p, [CancelAll])
  }

  /** The stop button as intended: it also clears the pending timers. */
  function Stop(p: Player): (r: (Player, seq<Effect>))
    ensures r.0.timers == 0 && r.0.index == p.index
    ensures Spoken(r.1) == [] && forall q :: Apply(q, r.1) == []
  {
    (Player(p.index, 0), [CancelAll])
  }

  /** One event; `fixed` selects the intended stop button. */
  function Handle(p: Player, steps: seq<string>, e: Event, fixed: bool): (Player, seq<Effect>) {
    match e
    case Started => Start(p, Some(steps))
    case Stopped => if fixed then Stop(p) else StopAsWritten(p)
    case TimerFired => Fire(p, steps)
  }

  /** Runs a sequence of events and collects what was read out. */
  function Run(p: Player, steps: seq<string>, events: seq<Event>, fixed: bool): (Player, seq<string>)
    decreases |events|
  {
    if events == [] then (p, [])
    else
      var (q, effects) := Handle(p, steps, events[0], fixed);
      var (last, spoken) := Run(q, steps, events[1..], fixed);
      (last, Spoken(effects) + spoken)
  }

  /** Whatever the user clicks and however the timers fire, `playIndex`
      never exceeds the number of steps. */
  lemma {:induction false} IndexNeverExceedsSteps(p: Player, steps: seq<string>, events: seq<Event>, fixed: bool)
    requires p.index <= |steps|
    ensures Run(p, steps, events, fixed).0.index <= |steps|
    decreases |events|
  {
    if events != [] {
      var (q, _) := Handle(p, steps, events[0], fixed);
      assert q.index <= |steps|;
      IndexNeverExceedsSteps(q, steps, events[1..], fixed);
    }
  }

  /** Playback from a click on start to the last timer: every step is read
      once, in order, as "Step k. text", and playback stops by itself. */
  method PlayToEnd(steps: seq<string>) returns (spoken: seq<string>, last: Player)
    ensures spoken == Announcements(steps)
    ensures last == Player(|steps|, 0)
  {
    var p, effects := Start(Idle, Some(steps)).0, Start(Idle, Some(steps)).1;
    spoken := Spoken(effects);
    while p.timers > 0
      invariant p.index <= |steps|
      invariant p.timers <= 1
      invariant p.timers == 0 ==> p.index == |steps|
      invariant spoken == Announcements(steps[..p.index])
      decreases |steps| - p.index + p.timers
    {
      var q, more := Fire(p, steps).0, Fire(p, steps).1;
      assert steps[..q.index] == steps[..p.index] + steps[p.index..q.index];
      spoken := spoken + Spoken(more);
      p := q;
    }
    assert steps[..p.index] == steps;
    last := p;
  }

  /** As written, stopping does not stop: after start and stop, the
      pending timer still reads step 2. */
  lemma StopAsWrittenKeepsPlaying()
    ensures Run(Idle, ["Boil water", "Add pasta"], [Started, Stopped, TimerFired], false).1
            == [Announcement(0, "Boil water"), Announcement(1, "Add pasta")]
  {
    var steps := ["Boil water", "Add pasta"];
    var events := [Started, Stopped, TimerFired];
    assert events[1..] == [Stopped, TimerFired];
    assert events[1..][1..] == [TimerFired];
    assert events[1..][1..][1..] == [];
    assert Spoken([CancelAll]) == [];
    assert Spoken([Speak(Announcement(1, "Add pasta"))]) == [Announcement(1, "Add pasta")];
    assert Spoken([Speak(Announcement(0, "Boil water"))]) == [Announcement(0, "Boil water")];
  }

  /** With the intended stop button, nothing more is read after a stop
      until start is clicked again. */
  lemma {:induction false} StopSilencesPlayback(p: Player, steps: seq<string>, n: nat)
    ensures var (q, _) := Stop(p);
            Run(q, steps, seq(n, _ => TimerFired), true).1 == []
    decreases n
  {
    var (q, _) := Stop(p);
    if n > 0 {
      var events := seq(n, _ => TimerFired);
      assert events[0] == TimerFired;
      assert events[1..] == seq(n - 1, _ => TimerFired);
      assert Handle(q, steps, TimerFired, true) == (q, []);
      StopSilencesPlayback(p, steps, n - 1);
    }
  }
}

=== FILE: local_store.dfy ===
/** The local client's own state (app.js): the pantry, the favourite
    recipe ids and the bounded activity log, and the click handlers that
    change them. Persistence to browser storage is not modelled: every
    handler here returns the new state. */
module LocalStore {
  import opened Base
  import opened Seqs
  import Text
  import Numerals
  import Catalogue
  import Substitutions

  /** The activity log keeps at most this many entries. */
  const ActivityCap: nat := 200

  datatype PantryItem = PantryItem(name: string, expiry: int)

  datatype Store = Store(
    pantry: seq<PantryItem>,
    favorites: seq<string>,
    activity: seq<string>)

  /** What a click handler leads to: a new state, an alert (the state is
      unchanged), or an exception thrown part-way (the state is unchanged). */
  datatype Outcome = Done(store: Store) | Alerted(message: string) | Threw

  // ---------------------------------------------------------------------
  // Activity log

  /** Appends an entry; once the log is over the cap, the oldest entry is
      dropped. */
  function ActivityLog(log: seq<string>, text: string): (r: seq<string>)
    ensures |r| > 0 && r[|r| - 1] == text
    ensures |log| < ActivityCap ==> r == log + [text]
    ensures |log| >= ActivityCap ==> r == log[1..] + [text]
    ensures |log| <= ActivityCap ==> |r| <= ActivityCap
  {
    var pushed := log + [text];
    if |pushed| > ActivityCap then pushed[1..] else pushed
  }

  /** Logs several entries, one after the other. */
  function LogAll(log: seq<string>, texts: seq<string>): seq<string>
    decreases |texts|
  {
    if texts == [] then log else LogAll(ActivityLog(log, texts[0]), texts[1..])
  }

  /** One entry logged onto a log within the cap keeps its latest
      `ActivityCap` entries. */
  lemma LogOneIsLast(log: seq<string>, text: string)
    requires |log| <= ActivityCap
    ensures ActivityLog(log, text) == Last(log + [text], ActivityCap)
    ensures |ActivityLog(log, text)| <= ActivityCap
  {
  }

  /** Whatever is logged, a log that starts within the cap holds exactly
      the latest `ActivityCap` entries, oldest first. */
  lemma {:induction false} LogKeepsLatest(log: seq<string>, texts: seq<string>)
    requires |log| <= ActivityCap
    ensures LogAll(log, texts) == Last(log + texts, ActivityCap)
    decreases |texts|
  {
    if texts == [] {
      assert log + texts == log;
      assert Last(log, ActivityCap) == log[0..];
    } else {
      var pushed := log + [texts[0]];
      var l1 := ActivityLog(log, texts[0]);
      var rest := texts[1..];
      calc {
        LogAll(log, texts);
        LogAll(l1, rest);
        { LogOneIsLast(log, texts[0]); LogKeepsLatest(l1, rest); }
        Last(l1 + rest, ActivityCap);
        { LogOneIsLast(log, texts[0]); }
        Last(Last(pushed, ActivityCap) + rest, ActivityCap);
        { LastOfAppend(pushed, rest, ActivityCap); }
        Last(pushed + rest, ActivityCap);
        { assert pushed + rest == log + texts; }
        Last(log + texts, ActivityCap);
      }
    }
  }

  // ---------------------------------------------------------------------
  // Favourites

  predicate NoDuplicates<T(==)>(xs: seq<T>) {
    forall i, j :: 0 <= i < j < |xs| ==> xs[i] != xs[j]
  }

  /** The favourite button: with no open recipe nothing happens; otherwise
      the recipe id is appended unless already present, and the action is
      logged either way. */
  function AddFavorite(s: Store, selected: Option<Catalogue.Recipe>): (r: Store)
    ensures selected.None? ==> r == s
    ensures selected.Some? ==> selected.value.id in r.favorites
    ensures selected.Some? && selected.value.id in s.favorites ==> r.favorites == s.favorites
    ensures selected.Some? && selected.value.id !in s.favorites
            ==> r.favorites == s.favorites + [selected.value.id]
    ensures NoDuplicates(s.favorites) ==> NoDuplicates(r.favorites)
    ensures r.pantry == s.pantry
    ensures selected.Some?
            ==> r.activity == ActivityLog(s.activity, "Added " + selected.value.title + " to favorites")
  {
    match selected
    case None => s
    case Some(recipe) =>
      var favorites := if recipe.id in s.favorites then s.favorites else s.favorites + [recipe.id];
      Store(s.pantry, favorites, ActivityLog(s.activity, "Added " + recipe.title + " to favorites"))
  }

  /** Adding the same favourite twice leaves the list as adding it once. */
  lemma AddFavoriteIdempotent(s: Store, selected: Option<Catalogue.Recipe>)
    ensures AddFavorite(AddFavorite(s, selected), selected).favorites == AddFavorite(s, selected).favorites
  {
  }

  // ---------------------------------------------------------------------
  // Pantry

  /** The pantry form: the trimmed name must not be empty; the expiry is
      `parseInt(...) || 7`. The new item goes to the end of the pantry. */
  function AddPantry(s: Store, nameInput: string, expiryInput: string): (r: Outcome)
    ensures r.Alerted? <==> Text.Trim(nameInput) == ""
    ensures !r.Threw?
    ensures r.Done? ==> r.store.pantry
                        == s.pantry + [PantryItem(Text.Trim(nameInput), Numerals.ExpiryOrDefault(expiryInput))]
    ensures r.Done? ==> r.store.favorites == s.favorites
    ensures r.Done? ==> r.store.activity == ActivityLog(s.activity, "Pantry: added " + Text.Trim(nameInput))
  {
    var name := Text.Trim(nameInput);
    var expiry := Numerals.ExpiryOrDefault(expiryInput);
    if name == "" then Alerted("Enter ingredient")
    else Done(Store(s.pantry + [PantryItem(name, expiry)], s.favorites,
                    ActivityLog(s.activity, "Pantry: added " + name)))
  }

  /** An item added through the form has a non-empty name with no white
      space at either end, and a non-zero expiry. */
  lemma AddedPantryItemIsClean(s: Store, nameInput: string, expiryInput: string)
    requires AddPantry(s, nameInput, expiryInput).Done?
    ensures var item := Last(AddPantry(s, nameInput, expiryInput).store.pantry, 1)[0];
            && item.name != ""
            && !Text.IsJsSpace(item.name[0])
            && !Text.IsJsSpace(item.name[|item.name| - 1])
            && item.expiry != 0
  {
  }

  /** The recipe page's "add to pantry" button: the typed name if any,
      otherwise the open recipe's first ingredient; the expiry is always 7. */
  function AddFromRecipe(s: Store, input: string, selected: Option<Catalogue.Recipe>): (r: Outcome)
    ensures !r.Threw?
    ensures r.Alerted? <==> Text.Trim(input) == ""
                            && (selected.None? || |selected.value.ingredients| == 0
                                || selected.value.ingredients[0] == "")
    ensures r.Done? && Text.Trim(input) != ""
            ==> r.store.pantry == s.pantry + [PantryItem(Text.Trim(input), 7)]
    ensures r.Done? && Text.Trim(input) == ""
            ==> r.store.pantry == s.pantry + [PantryItem(selected.value.ingredients[0], 7)]
    ensures r.Done? ==> r.store.favorites == s.favorites
    ensures r.Done? && Text.Trim(input) != ""
            ==> r.store.activity == ActivityLog(s.activity, "Pantry: added " + Text.Trim(input))
    ensures r.Done? && Text.Trim(input) == ""
            ==> r.store.activity
                == ActivityLog(s.activity, "Pantry: added " + selected.value.ingredients[0])
  {
    var typed := Text.Trim(input);
    var name :=
      if typed != "" then typed
      else if selected.Some? && |selected.value.ingredients| > 0 then selected.value.ingredients[0]
      else "";
    if name == "" then Alerted("No ingredient selected")
    else Done(Store(s.pantry + [PantryItem(name, 7)], s.favorites,
                    ActivityLog(s.activity, "Pantry: added " + name)))
  }

  /** The "x" button of pantry item `idx`: that item is removed and the
      others keep their order. For an index past the end, `splice` removes
      nothing and reading the removed item's name throws. */
  function RemovePantryAt(s: Store, idx: nat): (r: Outcome)
    ensures r.Done? <==> idx < |s.pantry|
    ensures !r.Done? ==> r.Threw?
    ensures r.Done? ==> |r.store.pantry| == |s.pantry| - 1
    ensures r.Done? ==> forall j :: 0 <= j < idx ==> r.store.pantry[j] == s.pantry[j]
    ensures r.Done? ==> forall j :: idx <= j < |r.store.pantry| ==> r.store.pantry[j] == s.pantry[j + 1]
    ensures r.Done? ==> multiset(r.store.pantry) + multiset{s.pantry[idx]} == multiset(s.pantry)
    ensures r.Done? ==> r.store.favorites == s.favorites
    ensures r.Done? ==> r.store.activity == ActivityLog(s.activity, "Pantry: removed " + s.pantry[idx].name)
  {
    if idx < |s.pantry| then
      var removed := s.pantry[idx];
      assert s.pantry == s.pantry[..idx] + [removed] + s.pantry[idx + 1..];
      Done(Store(s.pantry[..idx] + s.pantry[idx + 1..], s.favorites,
                 ActivityLog(s.activity, "Pantry: removed " + removed.name)))
    else Threw
  }

  /** Removing the item just added restores the pantry. */
  lemma AddThenRemoveRestoresPantry(s: Store, nameInput: string, expiryInput: string)
    requires AddPantry(s, nameInput, expiryInput).Done?
    ensures var added := AddPantry(s, nameInput, expiryInput).store;
            var removed := RemovePantryAt(added, |s.pantry|);
            removed.Done? && removed.store.pantry == s.pantry
  {
    var added := AddPantry(s, nameInput, expiryInput).store;
    var removed := RemovePantryAt(added, |s.pantry|);
    assert removed.store.pantry == added.pantry[..|s.pantry|];
  }

  // ---------------------------------------------------------------------
  // Substitution page

  /** What the local substitution search shows. */
  datatype LookupShown = NeedIngredient | Shown(suggestions: seq<string>, store: Store)

  /** The "find substitutes" button: an empty trimmed query is refused;
      otherwise the three suggestions for the trimmed query are shown and
      the lookup is logged. */
  function FindSubsLocal(s: Store, query: string): (r: LookupShown)
    ensures r.NeedIngredient? <==> Text.Trim(query) == ""
    ensures r.Shown? ==> |r.suggestions| == 3
    ensures r.Shown? ==> r.suggestions == Substitutions.FakeSubstitute(Text.Trim(query))
    ensures r.Shown? ==> r.store.pantry == s.pantry && r.store.favorites == s.favorites
    ensures r.Shown? ==> r.store.activity == ActivityLog(s.activity, "Substitution lookup for: " + Text.Trim(query))
  {
    var q := Text.Trim(query);
    if q == "" then NeedIngredient
    else Shown(Substitutions.FakeSubstitute(q),
               Store(s.pantry, s.favorites, ActivityLog(s.activity, "Substitution lookup for: " + q)))
  }
}

=== FILE: numerals.dfy ===
/** Decimal rendering of integers (Python `str(int)`) and the JavaScript
    `parseInt(text)` used for the pantry expiry field, with the `|| 7`
    fallback both clients apply to it. */
module Numerals {
  import opened Base
  import Text

  predicate IsDigit(c: char) { '0' <= c <= '9' }

  predicate IsHexDigit(c: char) {
    IsDigit(c) || 'a' <= c <= 'f' || 'A' <= c <= 'F'
  }

  function DigitValue(c: char): (d: nat)
    requires IsHexDigit(c)
    ensures d < 16
    ensures IsDigit(c) ==> d < 10
  {
    if IsDigit(c) then c as int - '0' as int
    else if 'a' <= c <= 'f' then c as int - 'a' as int + 10
    else c as int - 'A' as int + 10
  }

  predicate AllDigits(s: string) {
    forall i :: 0 <= i < |s| ==> IsDigit(s[i])
  }

  predicate AllHexDigits(s: string) {
    forall i :: 0 <= i < |s| ==> IsHexDigit(s[i])
  }

  function DigitChar(d: nat): (c: char)
    requires d < 10
    ensures IsDigit(c) && DigitValue(c) == d
  {
    ('0' as int + d) as char
  }

  /** Decimal digits of `n`, most significant first, without leading zeros. */
  function NatToString(n: nat): (r: string)
    ensures |r| > 0 && AllDigits(r)
    ensures r[0] == '0' <==> n == 0
    ensures n == 0 ==> r == "0"
    decreases n
  {
    if n < 10 then [DigitChar(n)] else NatToString(n / 10) + [DigitChar(n % 10)]
  }

  /** Python `str(i)` for an integer. */
  function IntToString(i: int): string {
    if i < 0 then "-" + NatToString(-i) else NatToString(i)
  }

  /** The number a string of digits denotes in base `radix`. */
  function DigitsValue(s: string, radix: nat): nat
    requires AllHexDigits(s)
    decreases |s|
  {
    if s == [] then 0
    else DigitsValue(s[..|s| - 1], radix) * radix + DigitValue(s[|s| - 1])
  }

  /** Reading back the decimal rendering of `n` gives `n`. */
  lemma {:induction false} ValueOfNatToString(n: nat)
    ensures DigitsValue(NatToString(n), 10) == n
    decreases n
  {
    var r := NatToString(n);
    if n >= 10 {
      ValueOfNatToString(n / 10);
      assert r[..|r| - 1] == NatToString(n / 10);
    }
  }

  function Pow(base: nat, e: nat): (r: nat)
    ensures base > 0 ==> r > 0
    decreases e
  {
    if e == 0 then 1 else base * Pow(base, e - 1)
  }

  /** The lower-case hexadecimal digit for `d`. */
  function HexChar(d: nat): (c: char)
    requires d < 16
    ensures IsHexDigit(c) && DigitValue(c) == d
  {
    if d < 10 then DigitChar(d) else ('a' as int + d - 10) as char
  }

  /** The lowest `width` hexadecimal digits of `n`, most significant
      first, padded with zeros. */
  function HexDigits(n: nat, width: nat): (r: string)
    ensures |r| == width && AllHexDigits(r)
    decreases width
  {
    if width == 0 then "" else HexDigits(n / 16, width - 1) + [HexChar(n % 16)]
  }

  /** Reading back `width` hexadecimal digits gives the number when it
      fits in them. */
  lemma {:induction false} ValueOfHexDigits(n: nat, width: nat)
    requires n < Pow(16, width)
    ensures DigitsValue(HexDigits(n, width), 16) == n
    decreases width
  {
    if width > 0 {
      var r := HexDigits(n, width);
      assert r[..|r| - 1] == HexDigits(n / 16, width - 1);
      ValueOfHexDigits(n / 16, width - 1);
    }
  }

  /** A string of hexadecimal digits denotes less than 16 to its length. */
  lemma {:induction false} ValueBelowPow(s: string, radix: nat)
    requires AllHexDigits(s) && radix == 16
    ensures DigitsValue(s, radix) < Pow(radix, |s|)
    decreases |s|
  {
    if s != [] {
      var init := s[..|s| - 1];
      ValueBelowPow(init, radix);
      var v := DigitsValue(init, radix);
      var p := Pow(radix, |init|);
      assert v * 16 + 15 < p * 16 by {
        assert v + 1 <= p;
        assert (v + 1) * 16 <= p * 16;
      }
    }
  }

  /** The longest prefix of `s` made of digits valid in base 10 or 16. */
  function DigitPrefix(s: string, hex: bool): (r: string)
    ensures |r| <= |s| && r == s[..|r|]
    ensures AllHexDigits(r)
    ensures !hex ==> AllDigits(r)
    ensures |r| < |s| ==> !(if hex then IsHexDigit(s[|r|]) else IsDigit(s[|r|]))
    decreases |s|
  {
    if |s| > 0 && (if hex then IsHexDigit(s[0]) else IsDigit(s[0]))
    then [s[0]] + DigitPrefix(s[1..], hex)
    else ""
  }

  /** A `0x` or `0X` prefix, which selects base 16. */
  predicate HexPrefixed(u: string) {
    |u| >= 2 && u[0] == '0' && (u[1] == 'x' || u[1] == 'X')
  }

  /** The digits after the sign: a `0x`/`0X` prefix selects base 16, and
      the longest run of digits that follows is read; `None` when there is
      no digit. */
  function ParseMagnitude(u: string): (m: Option<nat>)
    ensures !HexPrefixed(u) ==> (m.Some? <==> |u| > 0 && IsDigit(u[0]))
    ensures !HexPrefixed(u) && m.Some? ==> m.value == DigitsValue(DigitPrefix(u, false), 10)
    ensures HexPrefixed(u) ==> (m.Some? <==> |u| > 2 && IsHexDigit(u[2]))
    ensures HexPrefixed(u) && m.Some? ==> m.value == DigitsValue(DigitPrefix(u[2..], true), 16)
  {
    var hex := HexPrefixed(u);
    var digits := DigitPrefix(if hex then u[2..] else u, hex);
    if digits == [] then None else Some(DigitsValue(digits, if hex then 16 else 10))
  }

  /** JavaScript `parseInt(s)` with no radix: leading white space is skipped
      and one sign is accepted before the digits. `None` stands for `NaN`.
      Negative zero is the integer 0. */
  function ParseInt(s: string): (r: Option<int>)
    ensures var t := Text.TrimStart(s);
            |t| == 0 || !(IsDigit(t[0]) || t[0] == '-' || t[0] == '+') ==> r.None?
    ensures var t := Text.TrimStart(s);
            |t| > 0 && IsDigit(t[0]) && !HexPrefixed(t)
            ==> r == Some(DigitsValue(DigitPrefix(t, false), 10))
    ensures var t := Text.TrimStart(s);
            |t| > 0 && r.Some? ==> (if t[0] == '-' then r.value <= 0 else r.value >= 0)
    // After an optional sign: a decimal number, or a hexadecimal one after
    // `0x`; `NaN` when no digit follows.
    ensures var t := Text.TrimStart(s);
            var signed := |t| > 0 && (t[0] == '-' || t[0] == '+');
            var u := if signed then t[1..] else t;
            var sign := if |t| > 0 && t[0] == '-' then -1 else 1;
            !HexPrefixed(u)
            ==> (r.Some? <==> |u| > 0 && IsDigit(u[0]))
                && (r.Some? ==> r.value == sign * DigitsValue(DigitPrefix(u, false), 10))
    ensures var t := Text.TrimStart(s);
            var signed := |t| > 0 && (t[0] == '-' || t[0] == '+');
            var u := if signed then t[1..] else t;
            var sign := if |t| > 0 && t[0] == '-' then -1 else 1;
            HexPrefixed(u)
            ==> (r.Some? <==> |u| > 2 && IsHexDigit(u[2]))
                && (r.Some? ==> r.value == sign * DigitsValue(DigitPrefix(u[2..], true), 16))
  {
    var t := Text.TrimStart(s);
    var signed := |t| > 0 && (t[0] == '-' || t[0] == '+');
    match ParseMagnitude(if signed then t[1..] else t)
    case None => None
    case Some(m) => Some(if |t| > 0 && t[0] == '-' then -(m as int) else m)
  }

  /** `parseInt(s) || 7`: `NaN` and zero are both falsy, so both give 7. */
  function ExpiryOrDefault(s: string): (days: int)
    ensures days != 0
    ensures ParseInt(s).None? ==> days == 7
    ensures ParseInt(s).Some? && ParseInt(s).value != 0 ==> days == ParseInt(s).value
  {
    match ParseInt(s)
    case None => 7
    case Some(v) => if v == 0 then 7 else v
  }

  /** `parseInt` reads back what `str` wrote: the two are inverse on
      natural numbers. */
  lemma ParseIntOfNatToString(n: nat)
    ensures ParseInt(NatToString(n)) == Some(n)
  {
    var s := NatToString(n);
    assert IsDigit(s[0]) && !Text.IsJsSpace(s[0]);
    assert Text.TrimStart(s) == s;
    assert !(|s| >= 2 && s[0] == '0');
    DigitPrefixOfDigits(s);
    ValueOfNatToString(n);
  }

  lemma DigitPrefixOfDigits(s: string)
    requires AllDigits(s)
    ensures DigitPrefix(s, false) == s
  {
  }

  /** A negative number typed into the expiry field is kept too: it is
      not falsy. */
  lemma NegativeExpiryKept(n: nat)
    requires n > 0
    ensures ExpiryOrDefault("-" + NatToString(n)) == -(n as int)
  {
    var u := NatToString(n);
    var s := "-" + u;
    assert !Text.IsJsSpace(s[0]);
    assert Text.TrimStart(s) == s;
    assert s[1..] == u;
    assert !HexPrefixed(u);
    DigitPrefixOfDigits(u);
    ValueOfNatToString(n);
  }

  /** A positive number typed into the expiry field is kept as it is. */
  lemma ExpiryKeepsPositive(n: nat)
    requires n > 0
    ensures ExpiryOrDefault(NatToString(n)) == n
  {
    ParseIntOfNatToString(n);
  }
}

=== FILE: query.dfy ===
/** The `?user=` query parameter of the pantry and favourites requests
    (cookmate-backend/static/app.js): the text the client puts after
    `user=`, what Flask's `request.args.get("user")` reads back from it,
    and JavaScript's `encodeURIComponent`, which makes the two agree. */
module Query {
  import Numerals

  /** Characters that end the value: '&' starts the next parameter and
      '#' starts a fragment, which the browser does not send. */
  predicate Ends(c: char) { c == '&' || c == '#' }

  /** Characters the server does not read back as themselves: the ends
      of the value, '+' (read as a space) and '%' (an escape). */
  predicate Special(c: char) { Ends(c) || c == '+' || c == '%' }

  predicate NoSpecial(s: string) {
    forall i :: 0 <= i < |s| ==> !Special(s[i])
  }

  /** The part of the text up to the first character that ends the value. */
  function Cut(s: string): (r: string)
    ensures |r| <= |s| && r == s[..|r|]
    ensures forall i :: 0 <= i < |r| ==> !Ends(r[i])
    ensures |r| < |s| ==> Ends(s[|r|])
    decreases |s|
  {
    if s == [] || Ends(s[0]) then [] else [s[0]] + Cut(s[1..])
  }

  /** Form decoding: '+' is a space and `%XY` with two hexadecimal digits
      is the character with that code; anything else stands for itself. */
  function Decode(s: string): (r: string)
    ensures (forall i :: 0 <= i < |s| ==> s[i] != '+' && s[i] != '%') ==> r == s
    ensures |r| <= |s|
    decreases |s|
  {
    if s == [] then []
    else if s[0] == '+' then " " + Decode(s[1..])
    else if s[0] == '%' && |s| >= 3 && Numerals.IsHexDigit(s[1]) && Numerals.IsHexDigit(s[2]) then
      [(Numerals.DigitValue(s[1]) * 16 + Numerals.DigitValue(s[2])) as char] + Decode(s[3..])
    else [s[0]] + Decode(s[1..])
  }

  /** `request.args.get("user")` for the request whose URL ends in
      `?user=` followed by `raw`. */
  function ArgValue(raw: string): (v: string)
    ensures NoSpecial(raw) ==> v == raw
    ensures |v| <= |raw|
  {
    Decode(Cut(raw))
  }

  /** The value stops at the first '&' or '#': whatever follows is not
      part of it. */
  lemma EndsCutValue(a: string, c: char, b: string)
    requires NoSpecial(a) && Ends(c)
    ensures ArgValue(a + [c] + b) == a
  {
    var s := a + [c] + b;
    var r := Cut(s);
    assert s[|a|] == c;
    assert forall i :: 0 <= i < |a| ==> s[i] == a[i];
    assert r == s[..|a|] == a;
  }

  /** The characters `encodeURIComponent` leaves as they are. */
  predicate Unreserved(c: char) {
    'A' <= c <= 'Z' || 'a' <= c <= 'z' || '0' <= c <= '9'
    || c == '-' || c == '_' || c == '.' || c == '!' || c == '~' || c == '*'
    || c == '\'' || c == '(' || c == ')'
  }

  /** The upper-case hexadecimal digit for `d`. */
  function UpperHexChar(d: nat): (c: char)
    requires d < 16
    ensures Numerals.IsHexDigit(c) && Numerals.DigitValue(c) == d
  {
    if d < 10 then Numerals.DigitChar(d) else ('A' as int + d - 10) as char
  }

  /** One character as `encodeURIComponent` writes it: unreserved ASCII
      as is, other ASCII as `%XY`. A non-ASCII character is sent as the
      escapes of its UTF-8 bytes, which the server decodes back to it;
      here it stands for itself. */
  function EncodeChar(c: char): (e: string)
    ensures Unreserved(c) || c as int >= 128 ==> e == [c]
    ensures !Unreserved(c) && c as int < 128
            ==> |e| == 3 && e[0] == '%' && Numerals.IsHexDigit(e[1]) && Numerals.IsHexDigit(e[2])
                && Numerals.DigitValue(e[1]) * 16 + Numerals.DigitValue(e[2]) == c as int
    ensures forall i :: 0 <= i < |e| ==> !Ends(e[i]) && e[i] != '+'
  {
    if Unreserved(c) || c as int >= 128 then [c]
    else ['%', UpperHexChar(c as int / 16), UpperHexChar(c as int % 16)]
  }

  /** `encodeURIComponent(s)`. */
  function Encode(s: string): (e: string)
    ensures forall i :: 0 <= i < |e| ==> !Ends(e[i]) && e[i] != '+'
    ensures (forall i :: 0 <= i < |s| ==> Unreserved(s[i])) ==> e == s
    decreases |s|
  {
    if s == [] then [] else EncodeChar(s[0]) + Encode(s[1..])
  }

  /** Decoding undoes encoding, one character at a time. */
  lemma {:induction false} DecodeEncode(s: string)
    ensures Decode(Encode(s)) == s
    decreases |s|
  {
    if s != [] {
      var rest := Encode(s[1..]);
      assert Encode(s) == EncodeChar(s[0]) + rest;
      DecodeEncodeChar(s[0], rest);
      DecodeEncode(s[1..]);
    }
  }

  /** Decoding reads one encoded character back, whatever follows it. */
  lemma DecodeEncodeChar(c: char, rest: string)
    ensures Decode(EncodeChar(c) + rest) == [c] + Decode(rest)
  {
    var e := EncodeChar(c);
    var t := e + rest;
    if |e| == 1 {
      assert t[0] == c && t[1..] == rest;
    } else {
      assert t[0] == '%' && t[1] == e[1] && t[2] == e[2];
      assert t[3..] == rest;
    }
  }

  /** Text without '&' or '#' is read to its end. */
  lemma CutWhole(s: string)
    requires forall i :: 0 <= i < |s| ==> !Ends(s[i])
    ensures Cut(s) == s
  {
  }

  /** An encoded value reaches the server intact, whatever it contains. */
  lemma EncodedValueArrives(s: string)
    ensures ArgValue(Encode(s)) == s
  {
    CutWhole(Encode(s));
    DecodeEncode(s);
  }

  /** Plain text in front decodes to itself, whatever follows it. */
  lemma {:induction false} DecodePlainPrefix(x: string, y: string)
    requires forall i :: 0 <= i < |x| ==> x[i] != '+' && x[i] != '%'
    ensures Decode(x + y) == x + Decode(y)
    decreases |x|
  {
    if x != [] {
      var z := x + y;
      assert z[0] == x[0] && z[1..] == x[1..] + y;
      assert z[0] != '+' && z[0] != '%';
      assert Decode(z) == [z[0]] + Decode(z[1..]);
      DecodePlainPrefix(x[1..], y);
    } else {
      assert x + y == y;
    }
  }

  /** Sent unencoded, a '+' between plain parts arrives as a space. */
  lemma {:induction false} PlusBecomesSpace(a: string, b: string)
    requires NoSpecial(a) && NoSpecial(b)
    ensures ArgValue(a + "+" + b) == a + " " + b
  {
    var tail := "+" + b;
    var raw := a + tail;
    assert a + "+" + b == raw;
    forall i | 0 <= i < |raw| ensures !Ends(raw[i]) {
      if i < |a| { assert raw[i] == a[i]; }
      else if i > |a| { assert raw[i] == b[i - |a| - 1]; }
    }
    CutWhole(raw);
    DecodePlainPrefix(a, tail);
    assert tail[0] == '+' && tail[1..] == b;
    assert Decode(tail) == " " + Decode(b);
  }
}

=== FILE: recipe_api.dfy ===
/** The backend's recipe routes (cookmate-backend/app.py): the listing
    that turns each stored recipe document into the JSON the clients read,
    and the lookup of one recipe by the id the listing gave it. The recipe
    collection is a sequence of documents in their stored order. */
module RecipeApi {
  import opened Base
  import Text
  import Numerals

  /** The `time` field of a stored recipe: a text such as "30 mins" or a
      bare number. */
  datatype TimeValue = TimeText(text: string) | TimeNumber(minutes: int)

  /** A stored recipe document; an absent field is `None`. */
  datatype RecipeDoc = RecipeDoc(
    name: Option<string>,
    cuisine: Option<string>,
    time: Option<TimeValue>,
    difficulty: Option<string>,
    ingredients: Option<seq<string>>,
    basicIngredients: Option<seq<string>>,
    steps: Option<seq<string>>,
    alternatives: Option<seq<string>>,
    img: Option<string>)

  /** A recipe as the routes return it. */
  datatype RecipeJson = RecipeJson(
    id: string,
    title: string,
    name: string,
    cuisine: string,
    time: string,
    difficulty: string,
    ingredients: seq<string>,
    basicIngredients: seq<string>,
    steps: seq<string>,
    alternatives: seq<string>,
    img: string)

  const ImagePrefix: string := "/static/images/"

  // ---------------------------------------------------------------------
  // Field conversions

  /** The id derived from a recipe name: lower-cased, spaces turned into
      hyphens. */
  function Slug(name: string): (id: string)
    ensures |id| == |name|
  {
    Text.ReplaceOneChar(Text.Lower(name), ' ', '-');
    Text.Replace(Text.Lower(name), " ", "-")
  }

  /** The name the lookup route derives from an id: hyphens turned into
      spaces, then title-cased. */
  function NameFromSlug(id: string): (name: string)
    ensures |name| == |id|
  {
    Text.ReplaceOneChar(id, '-', ' ');
    Text.Title(Text.Replace(id, "-", " "))
  }

  /** The `time` field as returned: its text with " mins" removed. */
  function TimeField(t: Option<TimeValue>): string {
    var text := match t
      case None => ""
      case Some(TimeText(s)) => s
      case Some(TimeNumber(m)) => Numerals.IntToString(m);
    Text.Replace(text, " mins", "")
  }

  /** The `img` field as returned: the file name without the images path. */
  function ImageField(img: Option<string>): string {
    Text.Replace(img.GetOr(""), ImagePrefix, "")
  }

  /** The listing's view of one document: absent text fields become "",
      an absent difficulty "Easy", absent lists []; the id is the slug of
      the name, and title and name both carry the name. */
  function FormatRecipe(d: RecipeDoc): (r: RecipeJson)
    ensures r.id == Slug(r.name) && r.title == r.name
    ensures d.name.Some? ==> r.name == d.name.value
    ensures d.name.None? ==> r.name == ""
    ensures d.difficulty.None? ==> r.difficulty == "Easy"
    ensures d.difficulty.Some? ==> r.difficulty == d.difficulty.value
    ensures d.steps.None? ==> r.steps == []
    ensures d.steps.Some? ==> r.steps == d.steps.value
    ensures d.ingredients.None? ==> r.ingredients == []
    ensures d.ingredients.Some? ==> r.ingredients == d.ingredients.value
  {
    var name := d.name.GetOr("");
    RecipeJson(
      Slug(name), name, name,
      d.cuisine.GetOr(""),
      TimeField(d.time),
      d.difficulty.GetOr("Easy"),
      d.ingredients.GetOr([]),
      d.basicIngredients.GetOr([]),
      d.steps.GetOr([]),
      d.alternatives.GetOr([]),
      ImageField(d.img))
  }

  /** `GET /api/recipes`: every document, formatted, in stored order. */
  function ListRecipes(docs: seq<RecipeDoc>): (listed: seq<RecipeJson>)
    ensures |listed| == |docs|
    ensures forall i :: 0 <= i < |docs| ==> listed[i] == FormatRecipe(docs[i])
  {
    seq(|docs|, i requires 0 <= i < |docs| => FormatRecipe(docs[i]))
  }

  // ---------------------------------------------------------------------
  // Lookup by id

  /** The answer of `GET /api/recipes/<id>`: the recipe, or a 404. */
  datatype Lookup = Found(recipe: RecipeJson) | NotFound

  /** The position of the first document satisfying `p` (`find_one`). */
  function FindFirst(docs: seq<RecipeDoc>, p: RecipeDoc -> bool): (k: Option<nat>)
    ensures k.Some? ==> k.value < |docs| && p(docs[k.value])
    ensures k.Some? ==> forall j :: 0 <= j < k.value ==> !p(docs[j])
    ensures k.None? ==> forall j :: 0 <= j < |docs| ==> !p(docs[j])
    decreases |docs|
  {
    if docs == [] then None
    else if p(docs[0]) then Some(0)
    else match FindFirst(docs[1..], p)
      case None => None
      case Some(k) => Some(k + 1)
  }

  /** The route as written: the id is turned back into a name, and the
      first document with exactly that name is returned. */
  function GetRecipeAsWritten(docs: seq<RecipeDoc>, id: string): (r: Lookup)
    ensures r.Found? <==> exists j :: 0 <= j < |docs| && docs[j].name == Some(NameFromSlug(id))
    ensures r.Found? ==> r.recipe.name == NameFromSlug(id)
  {
    var wanted := NameFromSlug(id);
    match FindFirst(docs, (d: RecipeDoc) => d.name == Some(wanted))
    case None => NotFound
    case Some(k) => Found(FormatRecipe(docs[k]))
  }

  /** The route as intended: the first document whose listed id is `id`. */
  function GetRecipe(docs: seq<RecipeDoc>, id: string): (r: Lookup)
    ensures r.Found? <==> exists j :: 0 <= j < |docs| && FormatRecipe(docs[j]).id == id
    ensures r.Found? ==> r.recipe.id == id
  {
    match FindFirst(docs, (d: RecipeDoc) => FormatRecipe(d).id == id)
    case None => NotFound
    case Some(k) => Found(FormatRecipe(docs[k]))
  }

  // ---------------------------------------------------------------------
  // Properties

  /** Slugs are lower-case and have no spaces. */
  lemma SlugShape(name: string)
    ensures Text.IsLowered(Slug(name))
    ensures forall i :: 0 <= i < |name| ==> Slug(name)[i] != ' '
  {
    Text.ReplaceOneChar(Text.Lower(name), ' ', '-');
  }

  /** Turning an id into a name and back gives the id exactly when the id
      could have come from a name: lower-case and without spaces. */
  lemma SlugOfNameFromSlug(id: string)
    ensures Slug(NameFromSlug(id)) == id
            <==> Text.IsLowered(id) && forall i :: 0 <= i < |id| ==> id[i] != ' '
  {
    var spaced := Text.MapChar(id, '-', ' ');
    Text.ReplaceOneChar(id, '-', ' ');
    var name := NameFromSlug(id);
    SlugShape(name);
    if Text.IsLowered(id) && forall i :: 0 <= i < |id| ==> id[i] != ' ' {
      Text.LowerOfTitle(spaced, false);
      Text.LowerFixesLowered(spaced);
      Text.ReplaceOneChar(Text.Lower(name), ' ', '-');
      Text.MapCharUndo(id, '-', ' ');
    }
  }

  /** For a name without hyphens, the lookup route turns the listed id
      back into the title-cased name, so the round trip succeeds exactly
      for names that are already title-cased. */
  lemma NameFromSlugOfSlug(name: string)
    requires forall i :: 0 <= i < |name| ==> name[i] != '-'
    ensures NameFromSlug(Slug(name)) == Text.Title(name)
    ensures NameFromSlug(Slug(name)) == name <==> Text.Title(name) == name
  {
    var lowered := Text.Lower(name);
    Text.ReplaceOneChar(lowered, ' ', '-');
    var slug := Slug(name);
    Text.ReplaceOneChar(slug, '-', ' ');
    Text.MapCharUndo(lowered, ' ', '-');
    Text.TitleIgnoresCase(name, false);
  }

  /** Every recipe the listing shows can be opened through the intended
      route, which returns the first document with the same id. */
  lemma ListedRecipeOpens(docs: seq<RecipeDoc>, i: nat)
    requires i < |docs|
    ensures var r := GetRecipe(docs, ListRecipes(docs)[i].id);
            r.Found? && r.recipe.id == ListRecipes(docs)[i].id
  {
  }

  /** Through the route as written, a listed recipe whose name has no
      hyphen opens only if its title-cased name is also stored. */
  lemma ListedRecipeOpensAsWrittenIff(docs: seq<RecipeDoc>, i: nat)
    requires i < |docs| && docs[i].name.Some?
    requires forall k :: 0 <= k < |docs[i].name.value| ==> docs[i].name.value[k] != '-'
    ensures GetRecipeAsWritten(docs, ListRecipes(docs)[i].id).Found?
            <==> exists j :: 0 <= j < |docs| && docs[j].name == Some(Text.Title(docs[i].name.value))
  {
    NameFromSlugOfSlug(docs[i].name.value);
  }

  /** A recipe whose name has no hyphen and is not title-cased is listed,
      but the route as written cannot find it unless the title-cased name
      is also stored; the intended route finds it. */
  lemma ListedButNotFoundAsWritten(docs: seq<RecipeDoc>, i: nat)
    requires i < |docs| && docs[i].name.Some?
    requires forall k :: 0 <= k < |docs[i].name.value| ==> docs[i].name.value[k] != '-'
    requires forall j :: 0 <= j < |docs| ==> docs[j].name != Some(Text.Title(docs[i].name.value))
    ensures GetRecipeAsWritten(docs, ListRecipes(docs)[i].id) == NotFound
    ensures GetRecipe(docs, ListRecipes(docs)[i].id).Found?
  {
    ListedRecipeOpensAsWrittenIff(docs, i);
    ListedRecipeOpens(docs, i);
  }

  /** A one-document collection whose name has no hyphen and a
      lower-case letter right after a space is listed, but the route as
      written cannot find it: the title-cased name differs. */
  lemma LowerWordIsListedButNotFound(name: string, i: nat)
    requires 0 < i < |name| && name[i - 1] == ' ' && Text.IsLowerLetter(name[i])
    requires forall k :: 0 <= k < |name| ==> name[k] != '-'
    ensures var docs := [RecipeDoc(Some(name), None, None, None, None, None, None, None, None)];
            GetRecipeAsWritten(docs, ListRecipes(docs)[0].id) == NotFound
            && GetRecipe(docs, ListRecipes(docs)[0].id).Found?
  {
    var docs := [RecipeDoc(Some(name), None, None, None, None, None, None, None, None)];
    Text.TitleAt(name, false, i);
    assert Text.Title(name)[i] != name[i];
    ListedButNotFoundAsWritten(docs, 0);
  }

  /** "Pav bhaji" is listed with id "pav-bhaji", but the route as written
      looks for "Pav Bhaji" and answers 404. */
  lemma PavBhajiIsListedButNotFound()
    ensures var docs := [RecipeDoc(Some("Pav bhaji"), None, None, None, None, None, None, None, None)];
            GetRecipeAsWritten(docs, ListRecipes(docs)[0].id) == NotFound
            && GetRecipe(docs, ListRecipes(docs)[0].id).Found?
  {
    LowerWordIsListedButNotFound("Pav bhaji", 4);
  }

  /** A time stored as "<n> mins" is returned as the bare number. */
  lemma TimeFieldStripsMinutes(n: nat)
    ensures TimeField(Some(TimeText(Numerals.NatToString(n) + " mins"))) == Numerals.NatToString(n)
    ensures TimeField(Some(TimeNumber(n))) == Numerals.NatToString(n)
  {
    var digits := Numerals.NatToString(n);
    Text.ReplaceSkipsPrefix(digits, " mins", " mins", "");
    assert " mins"[..|" mins"|] == " mins";
    assert Text.Replace(" mins"[5..], " mins", "") == "";
    Text.NotContainsWithoutFirstChar(digits, " mins");
    Text.ReplaceAbsent(digits, " mins", "");
  }

  /** The served client shows `/static/images/<img>`; for a document whose
      image is stored as a path under it, that is the stored path again. */
  lemma ImagePathRoundTrip(file: string)
    requires forall i :: 0 <= i < |file| ==> file[i] != '/'
    ensures ImagePrefix + ImageField(Some(ImagePrefix + file)) == ImagePrefix + file
    ensures ImageField(Some(file)) == file
  {
    assert (ImagePrefix + file)[..|ImagePrefix|] == ImagePrefix;
    assert (ImagePrefix + file)[|ImagePrefix|..] == file;
    Text.NotContainsWithoutFirstChar(file, ImagePrefix);
    Text.ReplaceAbsent(file, ImagePrefix, "");
  }
}

=== FILE: speech.dfy ===
/** The browser's speech synthesizer, seen from the clients: a queue of
    pending utterances that `speak` appends to and `cancel` empties. The
    clients' handlers return the synthesizer calls they make as a list of
    effects. */
module Speech {

  datatype Effect = Speak(text: string) | CancelAll

  /** The texts handed to the synthesizer, in order. */
  function Spoken(effects: seq<Effect>): (texts: seq<string>)
    ensures |texts| <= |effects|
    decreases |effects|
  {
    if effects == [] then []
    else (if effects[0].Speak? then [effects[0].text] else []) + Spoken(effects[1..])
  }

  /** The texts of two runs of effects are those of the first, then those
      of the second. */
  lemma {:induction false} SpokenConcat(a: seq<Effect>, b: seq<Effect>)
    ensures Spoken(a + b) == Spoken(a) + Spoken(b)
    decreases |a|
  {
    if a == [] {
      assert a + b == b;
    } else {
      var head := if a[0].Speak? then [a[0].text] else [];
      assert (a + b)[0] == a[0] && (a + b)[1..] == a[1..] + b;
      assert Spoken(a + b) == head + Spoken(a[1..] + b);
      SpokenConcat(a[1..], b);
      assert head + (Spoken(a[1..]) + Spoken(b)) == (head + Spoken(a[1..])) + Spoken(b);
    }
  }

  /** The synthesizer queue after the effects. */
  function Apply(queue: seq<string>, effects: seq<Effect>): seq<string>
    decreases |effects|
  {
    if effects == [] then queue
    else
      match effects[0]
      case Speak(t) => Apply(queue + [t], effects[1..])
      case CancelAll => Apply([], effects[1..])
  }

  /** The served client's `speakText`: cancel whatever is being spoken,
      then speak `t`. */
  function SpeakText(t: string): seq<Effect> {
    [CancelAll, Speak(t)]
  }

  /** After `speakText`, exactly one utterance is current: `t`, whatever
      was queued before. */
  lemma SpeakTextLeavesOneUtterance(queue: seq<string>, t: string)
    ensures Apply(queue, SpeakText(t)) == [t]
    ensures Spoken(SpeakText(t)) == [t]
  {
    var e := SpeakText(t);
    assert e[1..] == [Speak(t)];
    assert e[1..][1..] == [];
    assert Apply([t], []) == [t];
    assert [] + [t] == [t];
    assert Apply([], e[1..]) == [t];
  }
}

=== FILE: step_player.dfy ===
/** The served client's step narration (cookmate-backend/static/app.js):
    each step is spoken as one utterance; when it ends, the index advances
    and, while playing, a timer speaks the next step; after the last step
    the completion message is spoken. The end of an utterance and the firing
    of a timer are events: `ends` counts the step utterances whose end has
    not yet been handled, `timers` the timers not yet fired. */
module StepPlayer {
  import opened Base
  import opened Speech
  import Numerals

  /** `currentStepIndex`, `isPlayingSteps` and the pending events. */
  datatype Player = Player(index: nat, playing: bool, ends: nat, timers: nat)

  datatype Event = Started | Stopped | UtteranceEnded | TimerFired

  const Idle: Player := Player(0, false, 0, 0)

  const Completed: string := "Recipe steps completed. Enjoy!"

  /** What is spoken for step `i` (0-based). */
  function StepLine(i: nat, step: string): string {
    "Step " + Numerals.NatToString(i + 1) + ": " + step
  }

  /** The lines of all of `steps`, in order. */
  function StepLines(steps: seq<string>): (lines: seq<string>)
    ensures |lines| == |steps|
    ensures forall i :: 0 <= i < |steps| ==> lines[i] == StepLine(i, steps[i])
  {
    seq(|steps|, i requires 0 <= i < |steps| => StepLine(i, steps[i]))
  }

  /** `speakNextStep`: speaks the current step if playing, a recipe is open
      and a step is left; otherwise does nothing. */
  function SpeakNext(p: Player, selected: Option<seq<string>>): (r: (Player, seq<Effect>))
    ensures (p.playing && selected.Some? && p.index < |selected.value|)
            ==> r == (p.(ends := p.ends + 1), [Speak(StepLine(p.index, selected.value[p.index]))])
    ensures !(p.playing && selected.Some? && p.index < |selected.value|) ==> r == (p, [])
  {
    if !p.playing || selected.None? then (p, [])
    else if p.index < |selected.value| then
      (p.(ends := p.ends + 1), [Speak(StepLine(p.index, selected.value[p.index]))])
    else (p, [])
  }

  /** The start button: ignored without an open recipe; otherwise playing
      from the first step. */
  function Start(p: Player, selected: Option<seq<string>>): (r: (Player, seq<Effect>))
    ensures selected.None? ==> r == (p, [])
    ensures selected.Some? ==> r.0.index == 0 && r.0.playing && r.0.timers == p.timers
    ensures selected.Some? && |selected.value| > 0
            ==> r.0.ends == p.ends + 1 && r.1 == [Speak(StepLine(0, selected.value[0]))]
    ensures selected.Some? && |selected.value| == 0 ==> r.0.ends == p.ends && r.1 == []
  {
    if selected.None? then (p, [])
    else SpeakNext(p.(index := 0, playing := true), selected)
  }

  /** The stop button: playing ends and the synthesizer is cancelled. The
      pending utterance end and timers are left as they are. */
  function Stop(p: Player): (r: (Player, seq<Effect>))
    ensures !r.0.playing && r.0.index == p.index
    ensures r.0.ends == p.ends && r.0.timers == p.timers
    ensures r.1 == [CancelAll]
  {
    (p.(playing := false), [CancelAll])
  }

  /** The end handler of a step utterance: the index advances; while
      playing and with steps left, a timer is set for the next one;
      otherwise the completion message is spoken and playing ends. */
  function EndOfUtterance(p: Player, steps: seq<string>): (r: (Player, seq<Effect>))
    requires p.ends > 0
    ensures r.0.index == p.index + 1 && r.0.ends == p.ends - 1
    ensures p.playing && p.index + 1 < |steps| ==> r.0.playing && r.0.timers == p.timers + 1 && r.1 == []
    ensures !(p.playing && p.index + 1 < |steps|)
            ==> !r.0.playing && r.0.timers == p.timers && r.1 == SpeakText(Completed)
  {
    var q := p.(index := p.index + 1, ends := p.ends - 1);
    if q.playing && q.index < |steps| then (q.(timers := q.timers + 1), [])
    else (q.(playing := false), SpeakText(Completed))
  }

  /** One event. An event that cannot happen in `p` (an end with no
      utterance, a timer that was never set) changes nothing. */
  function Handle(p: Player, selected: Option<seq<string>>, e: Event): (Player, seq<Effect>) {
    match e
    case Started => Start(p, selected)
    case Stopped => Stop(p)
    case UtteranceEnded =>
      if p.ends == 0 || selected.None? then (p, []) else EndOfUtterance(p, selected.value)
    case TimerFired =>
      if p.timers == 0 then (p, []) else SpeakNext(p.(timers := p.timers - 1), selected)
  }

  /** Runs a sequence of events and collects what was spoken. */
  function Run(p: Player, selected: Option<seq<string>>, events: seq<Event>): (Player, seq<string>)
    decreases |events|
  {
    if events == [] then (p, [])
    else
      var (q, effects) := Handle(p, selected, events[0]);
      var (last, spoken) := Run(q, selected, events[1..]);
      (last, Spoken(effects) + spoken)
  }

  // ---------------------------------------------------------------------
  // Invariant

  /** Nothing is pending. */
  predicate Quiet(p: Player) {
    p.ends == 0 && p.timers == 0
  }

  /** At most one step utterance or timer is pending, a pending utterance
      is one of the recipe's steps, and the index stays within the steps. */
  predicate Inv(p: Player, n: nat) {
    p.index <= n && p.ends + p.timers <= 1 && (p.ends > 0 ==> p.index < n)
  }

  /** Every event that is not a start while something is pending keeps
      the invariant. */
  lemma HandleKeepsInv(p: Player, steps: seq<string>, e: Event)
    requires Inv(p, |steps|)
    requires e == Started ==> Quiet(p)
    ensures Inv(Handle(p, Some(steps), e).0, |steps|)
  {
  }

  /** The events a user can cause without clicking start twice: start is
      only clicked when nothing is pending. */
  predicate StartsWhenQuiet(p: Player, selected: Option<seq<string>>, events: seq<Event>)
    decreases |events|
  {
    events == []
    || ((events[0] == Started ==> Quiet(p))
        && StartsWhenQuiet(Handle(p, selected, events[0]).0, selected, events[1..]))
  }

  /** Along such a run, the invariant holds throughout, and so the index
      never passes the last step. */
  lemma {:induction false} RunKeepsInv(p: Player, steps: seq<string>, events: seq<Event>)
    requires Inv(p, |steps|)
    requires StartsWhenQuiet(p, Some(steps), events)
    ensures Inv(Run(p, Some(steps), events).0, |steps|)
    ensures Run(p, Some(steps), events).0.index <= |steps|
    decreases |events|
  {
    if events != [] {
      HandleKeepsInv(p, steps, events[0]);
      RunKeepsInv(Handle(p, Some(steps), events[0]).0, steps, events[1..]);
    }
  }

  // ---------------------------------------------------------------------
  // Whole narrations

  /** Narration from a click on start, each utterance and timer running to
      its end: every step is spoken once, in order, as "Step k: text",
      followed by the completion message; then nothing is pending. */
  method NarrateAll(steps: seq<string>) returns (spoken: seq<string>, last: Player)
    requires |steps| > 0
    ensures spoken == StepLines(steps) + [Completed]
    ensures last == Player(|steps|, false, 0, 0)
  {
    var p, effects := Start(Idle, Some(steps)).0, Start(Idle, Some(steps)).1;
    spoken := Spoken(effects);
    while p.ends > 0
      invariant p.index <= |steps| && p.timers == 0 && p.ends <= 1
      invariant p.ends == 1 ==> p.playing && p.index < |steps|
                                && spoken == StepLines(steps[..p.index + 1])
      invariant p.ends == 0 ==> !p.playing && p.index == |steps|
                                && spoken == StepLines(steps) + [Completed]
      decreases |steps| - p.index
    {
      var q, more := EndOfUtterance(p, steps).0, EndOfUtterance(p, steps).1;
      if q.timers > 0 {
        assert more == [];
        var r, next := SpeakNext(q.(timers := q.timers - 1), Some(steps)).0,
                       SpeakNext(q.(timers := q.timers - 1), Some(steps)).1;
        assert steps[..r.index + 1] == steps[..p.index + 1] + [steps[r.index]];
        spoken := spoken + Spoken(next);
        p := r;
      } else {
        SpeakTextLeavesOneUtterance([], Completed);
        assert steps[..p.index + 1] == steps;
        spoken := spoken + Spoken(more);
        p := q;
      }
    }
    last := p;
  }

  /** With no steps, start speaks nothing and `isPlayingSteps` stays set
      until stop is clicked. */
  lemma EmptyRecipeLeavesPlaying(p: Player)
    ensures Start(p, Some([])).1 == []
    ensures Start(p, Some([])).0.playing
  {
  }

  /** Stopping does not silence the end handler: when the current step's
      utterance still reports its end after stop, the completion message
      is spoken. */
  lemma StopThenEndAnnouncesCompletion()
    ensures Run(Idle, Some(["Chop onions", "Fry"]), [Started, Stopped, UtteranceEnded]).1
            == [StepLine(0, "Chop onions"), Completed]
  {
    var selected := Some(["Chop onions", "Fry"]);
    var events := [Started, Stopped, UtteranceEnded];
    assert events[1..] == [Stopped, UtteranceEnded];
    assert events[1..][1..] == [UtteranceEnded];
    assert events[1..][1..][1..] == [];
    SpeakTextLeavesOneUtterance([], Completed);
    assert Spoken([CancelAll]) == [];
    assert Spoken([Speak(StepLine(0, "Chop onions"))]) == [StepLine(0, "Chop onions")];
  }

  /** Clicking start twice before the first step ends queues the first
      step twice, and both of its ends advance the index. When the second
      one ends before the first timer fires, step 2 is skipped and step 3
      is spoken twice. */
  lemma DoubleStartSkipsAStep()
    ensures var steps := ["Boil", "Mash", "Serve"];
            Run(Idle, Some(steps), [Started, Started, UtteranceEnded, UtteranceEnded, TimerFired, TimerFired]).1
            == [StepLine(0, "Boil"), StepLine(0, "Boil"), StepLine(2, "Serve"), StepLine(2, "Serve")]
  {
    var steps := ["Boil", "Mash", "Serve"];
    var sel := Some(steps);
    var e := [Started, Started, UtteranceEnded, UtteranceEnded, TimerFired, TimerFired];
    var p1 := Player(0, true, 1, 0);
    var p2 := Player(0, true, 2, 0);
    var p3 := Player(1, true, 1, 1);
    var p4 := Player(2, true, 0, 2);
    var p5 := Player(2, true, 1, 1);
    var p6 := Player(2, true, 2, 0);
    assert e[1..] == [Started, UtteranceEnded, UtteranceEnded, TimerFired, TimerFired];
    assert e[2..] == e[1..][1..];
    assert e[3..] == e[2..][1..];
    assert e[4..] == e[3..][1..];
    assert e[5..] == e[4..][1..];
    assert e[5..][1..] == [];
    assert Handle(Idle, sel, Started) == (p1, [Speak(StepLine(0, "Boil"))]);
    assert Handle(p1, sel, Started) == (p2, [Speak(StepLine(0, "Boil"))]);
    assert Handle(p2, sel, UtteranceEnded) == (p3, []);
    assert Handle(p3, sel, UtteranceEnded) == (p4, []);
    assert Handle(p4, sel, TimerFired) == (p5, [Speak(StepLine(2, "Serve"))]);
    assert Handle(p5, sel, TimerFired) == (p6, [Speak(StepLine(2, "Serve"))]);
    assert Run(p6, sel, e[5..][1..]) == (p6, []);
    assert Spoken([Speak(StepLine(2, "Serve"))]) == [StepLine(2, "Serve")];
    assert Spoken([Speak(StepLine(0, "Boil"))]) == [StepLine(0, "Boil")];
    assert Spoken([]) == [];
    assert Run(p5, sel, e[5..]) == (p6, [StepLine(2, "Serve")]);
    assert e[4..][0] == TimerFired;
    assert [StepLine(2, "Serve")] + [StepLine(2, "Serve")] == [StepLine(2, "Serve"), StepLine(2, "Serve")];
    assert Run(p4, sel, e[4..]) == (p6, [StepLine(2, "Serve"), StepLine(2, "Serve")]);
    assert Run(p3, sel, e[3..]).1 == [StepLine(2, "Serve"), StepLine(2, "Serve")];
    assert Run(p2, sel, e[2..]).1 == [StepLine(2, "Serve"), StepLine(2, "Serve")];
  }

  /** The same double start when the first timer fires before the second
      step-1 utterance ends (the step text takes longer to speak than the
      timer's delay): step 2 is spoken, and its end finds the index already
      past the last step, so step 3 is never spoken. */
  lemma DoubleStartDropsLastStep()
    ensures var steps := ["Boil", "Mash", "Serve"];
            Run(Idle, Some(steps),
                [Started, Started, UtteranceEnded, TimerFired, UtteranceEnded, UtteranceEnded, TimerFired]).1
            == [StepLine(0, "Boil"), StepLine(0, "Boil"), StepLine(1, "Mash"), Completed]
  {
    var sel := Some(["Boil", "Mash", "Serve"]);
    var boil := StepLine(0, "Boil");
    var mash := StepLine(1, "Mash");
    var q1 := Player(0, true, 1, 0);
    var q2 := Player(0, true, 2, 0);
    var q3 := Player(1, true, 1, 1);
    var q4 := Player(1, true, 2, 0);
    var q5 := Player(2, true, 1, 1);
    var q6 := Player(3, false, 0, 1);
    var q7 := Player(3, false, 0, 0);
    var e6: seq<Event> := [TimerFired];
    var e5 := [UtteranceEnded] + e6;
    var e4 := [UtteranceEnded] + e5;
    var e3 := [TimerFired] + e4;
    var e2 := [UtteranceEnded] + e3;
    var e1 := [Started] + e2;
    var e0 := [Started] + e1;
    assert Run(q6, sel, e6) == (q7, []) by {
      assert Handle(q6, sel, TimerFired) == (q7, []);
      RunCons(q6, sel, TimerFired, []);
      assert e6 == [TimerFired] + [];
      assert Run(q6, sel, e6).1 == [] + [] == [];
    }
    assert Run(q5, sel, e5) == (q7, [Completed]) by {
      assert Handle(q5, sel, UtteranceEnded) == (q6, SpeakText(Completed));
      SpeakTextLeavesOneUtterance([], Completed);
      RunCons(q5, sel, UtteranceEnded, e6);
      assert Run(q5, sel, e5).1 == [Completed] + [] == [Completed];
    }
    assert Run(q4, sel, e4) == (q7, [Completed]) by {
      assert Handle(q4, sel, UtteranceEnded) == (q5, []);
      RunCons(q4, sel, UtteranceEnded, e5);
      assert Run(q4, sel, e4).1 == [] + [Completed] == [Completed];
    }
    assert Run(q3, sel, e3) == (q7, [mash, Completed]) by {
      assert Handle(q3, sel, TimerFired) == (q4, [Speak(mash)]);
      assert Spoken([Speak(mash)]) == [mash];
      RunCons(q3, sel, TimerFired, e4);
      assert Run(q3, sel, e3).1 == [mash] + [Completed] == [mash, Completed];
    }
    assert Run(q2, sel, e2) == (q7, [mash, Completed]) by {
      assert Handle(q2, sel, UtteranceEnded) == (q3, []);
      RunCons(q2, sel, UtteranceEnded, e3);
      assert Run(q2, sel, e2).1 == [] + [mash, Completed] == [mash, Completed];
    }
    assert Run(q1, sel, e1) == (q7, [boil, mash, Completed]) by {
      assert Handle(q1, sel, Started) == (q2, [Speak(boil)]);
      assert Spoken([Speak(boil)]) == [boil];
      RunCons(q1, sel, Started, e2);
      assert Run(q1, sel, e1).1 == [boil] + [mash, Completed] == [boil, mash, Completed];
    }
    assert Run(Idle, sel, e0).1 == [boil, boil, mash, Completed] by {
      assert Handle(Idle, sel, Started) == (q1, [Speak(boil)]);
      assert Spoken([Speak(boil)]) == [boil];
      RunCons(Idle, sel, Started, e1);
      assert Run(Idle, sel, e0).1 == [boil] + [boil, mash, Completed] == [boil, boil, mash, Completed];
    }
    assert e0 == [Started, Started, UtteranceEnded, TimerFired, UtteranceEnded, UtteranceEnded, TimerFired];
  }

  /** A run is its first event followed by the rest. */
  lemma RunCons(p: Player, selected: Option<seq<string>>, e: Event, rest: seq<Event>)
    ensures Run(p, selected, [e] + rest).0 == Run(Handle(p, selected, e).0, selected, rest).0
    ensures Run(p, selected, [e] + rest).1
            == Spoken(Handle(p, selected, e).1) + Run(Handle(p, selected, e).0, selected, rest).1
  {
    assert ([e] + rest)[0] == e && ([e] + rest)[1..] == rest;
  }
}

=== FILE: substitutions.dfy ===
/** Ingredient substitution lookup. The local client (app.js) picks the
    first table key that occurs inside the lower-cased ingredient; the
    served client (cookmate-backend/static/app.js) looks the trimmed,
    lower-cased query up as an exact key. */
module Substitutions {
  import opened Base
  import Text

  // ---------------------------------------------------------------------
  // Local client: first key contained in the ingredient

  /** The local table, in the order its keys are visited. */
  const LocalTable: seq<(string, seq<string>)> := [
    ("milk", ["yogurt", "buttermilk", "almond milk"]),
    ("egg", ["applesauce", "banana", "flaxseed mix"]),
    ("butter", ["margarine", "olive oil", "ghee"]),
    ("paneer", ["tofu", "ricotta", "halloumi"]),
    ("cream", ["coconut cream", "yogurt", "cashew cream"]),
    ("tomato", ["red bell pepper", "tomato paste", "sundried tomato"])
  ]

  /** The suggestions given when no key occurs in the ingredient. */
  const Generic: seq<string> := ["similar ingredient", "canned substitute", "omit & adjust"]

  /** Key `i` is the first key of the local table occurring in `s`. */
  predicate FirstKeyAt(s: string, i: int) {
    0 <= i < |LocalTable|
    && Text.Contains(s, LocalTable[i].0)
    && forall j :: 0 <= j < i ==> !Text.Contains(s, LocalTable[j].0)
  }

  /** No key of the local table occurs in `s`. */
  predicate NoKeyIn(s: string) {
    forall j :: 0 <= j < |LocalTable| ==> !Text.Contains(s, LocalTable[j].0)
  }

  /** Scans the keys from position `from` on and stops at the first one
      that occurs in `s`. */
  function FirstKey(s: string, from: nat): (k: Option<nat>)
    requires from <= |LocalTable|
    ensures k.Some? ==> from <= k.value < |LocalTable| && Text.Contains(s, LocalTable[k.value].0)
    ensures k.Some? ==> forall j :: from <= j < k.value ==> !Text.Contains(s, LocalTable[j].0)
    ensures k.None? ==> forall j :: from <= j < |LocalTable| ==> !Text.Contains(s, LocalTable[j].0)
    decreases |LocalTable| - from
  {
    if from == |LocalTable| then None
    else if Text.Contains(s, LocalTable[from].0) then Some(from)
    else FirstKey(s, from + 1)
  }

  /** The local client's suggestions for an ingredient: the list of the
      first key occurring in the lower-cased ingredient, or the generic
      list when none does. Always three suggestions. */
  function FakeSubstitute(ingredient: string): (suggestions: seq<string>)
    ensures |suggestions| == 3
    ensures forall i :: FirstKeyAt(Text.Lower(ingredient), i) ==> suggestions == LocalTable[i].1
    ensures suggestions == Generic <==> NoKeyIn(Text.Lower(ingredient))
  {
    var s := Text.Lower(ingredient);
    match FirstKey(s, 0)
    case Some(i) => LocalTable[i].1
    case None => Generic
  }

  /** The lookup does not depend on the case of the ingredient. */
  lemma FakeSubstituteIgnoresCase(ingredient: string)
    ensures FakeSubstitute(ingredient) == FakeSubstitute(Text.Lower(ingredient))
  {
    Text.LowerIdempotent(ingredient);
  }

  /** First match wins: "Buttermilk" contains both "milk" and "butter",
      and gets the milk list because milk is visited first. */
  lemma ButtermilkGetsMilkList()
    ensures FakeSubstitute("Buttermilk") == ["yogurt", "buttermilk", "almond milk"]
  {
    var s := Text.Lower("Buttermilk");
    assert s == "buttermilk";
    assert Text.OccursAt(s, "milk", 6);
    assert FirstKeyAt(s, 0);
  }

  // ---------------------------------------------------------------------
  // Served client: exact key lookup

  const ServedTable: map<string, seq<string>> := map[
    "buttermilk" := ["Yogurt+water", "Milk+lemon juice", "Sour cream"],
    "butter" := ["Ghee", "Coconut oil", "Olive oil"],
    "egg" := ["Flax egg", "Banana", "Applesauce"],
    "milk" := ["Almond milk", "Coconut milk", "Soy milk"],
    "tomato" := ["Tomato paste+water", "Red bell pepper", "Canned tomatoes"]
  ]

  /** The single entry shown for an unknown ingredient. */
  const NoneFound: seq<string> := ["No substitutions found."]

  /** The lower-case property names every JavaScript object inherits; a
      lookup by one of them on the table object finds a non-list value. */
  const InheritedNames: set<string> := {"constructor", "__proto__"}

  /** What the served client's "find substitutes" button shows: a prompt
      for an empty query, the listed substitutes, or a crash of the click
      handler (the value found is not a list, so iterating over it throws). */
  datatype SubsResult = EnterIngredient | Listed(items: seq<string>) | Crashed

  /** The lookup as written: the key is looked up as a property of an
      object literal, which also finds the inherited properties. */
  function FindSubsAsWritten(query: string): (r: SubsResult)
    ensures r == EnterIngredient <==> Text.Trim(query) == ""
    ensures r.Crashed? <==> Text.Trim(query) != "" && Text.Lower(Text.Trim(query)) !in ServedTable
                            && Text.Lower(Text.Trim(query)) in InheritedNames
    ensures !r.Crashed? ==> r == FindSubs(query)
  {
    var q := Text.Trim(query);
    if q == "" then EnterIngredient
    else
      var key := Text.Lower(q);
      if key in ServedTable then Listed(ServedTable[key])
      else if key in InheritedNames then Crashed
      else Listed(NoneFound)
  }

  /** The lookup as intended: only the table's own keys are found. An
      empty trimmed query is refused before any lookup; a known key lists
      its substitutes, anything else the single "not found" entry. */
  function FindSubs(query: string): (r: SubsResult)
    ensures r == EnterIngredient <==> Text.Trim(query) == ""
    ensures r != Crashed
    ensures r.Listed? && Text.Lower(Text.Trim(query)) in ServedTable
            ==> r.items == ServedTable[Text.Lower(Text.Trim(query))]
    ensures r.Listed? && Text.Lower(Text.Trim(query)) !in ServedTable ==> r.items == NoneFound
    ensures r.Listed? ==> 1 <= |r.items| <= 3
  {
    var q := Text.Trim(query);
    if q == "" then EnterIngredient else Listed(Lookup(Text.Lower(q)))
  }

  /** The table's own entry for `key`, or the "not found" entry. */
  function Lookup(key: string): (items: seq<string>)
    ensures key in ServedTable ==> items == ServedTable[key]
    ensures key !in ServedTable ==> items == NoneFound
    ensures 1 <= |items| <= 3
  {
    if key in ServedTable then
      EntriesHaveThree(key);
      ServedTable[key]
    else NoneFound
  }

  /** Every entry of the served table lists three substitutes. */
  lemma EntriesHaveThree(key: string)
    requires key in ServedTable
    ensures |ServedTable[key]| == 3
  {
  }

  /** The two lookups differ exactly on the inherited names, where the
      code as written crashes. */
  lemma FindSubsAsWrittenCrashesOnlyOnInheritedNames(query: string)
    ensures FindSubsAsWritten(query) == Crashed
            <==> Text.Trim(query) != "" && Text.Lower(Text.Trim(query)) in InheritedNames
    ensures FindSubsAsWritten(query) != Crashed ==> FindSubsAsWritten(query) == FindSubs(query)
  {
    InheritedNamesAreNotKeys();
  }

  /** No inherited name is a key of the table: their lengths differ. */
  lemma InheritedNamesAreNotKeys()
    ensures forall k :: k in InheritedNames ==> k !in ServedTable
  {
    forall k | k in ServedTable ensures |k| != 9 && |k| != 11 {
    }
    forall k | k in InheritedNames ensures |k| == 9 || |k| == 11 {
    }
  }

  /** Typing "constructor" into the served client's lookup crashes it. */
  lemma ConstructorQueryCrashes()
    ensures FindSubsAsWritten("constructor") == Crashed
    ensures FindSubs("constructor") == Listed(NoneFound)
  {
    var q := "constructor";
    assert Text.IsLowered(q) by {
      forall i | 0 <= i < |q| ensures !Text.IsUpper(q[i]) {
      }
    }
    assert q !in ServedTable by {
      forall k | k in ServedTable ensures k != q {
        assert |k| != |q|;
      }
    }
    NormalisedQueryResults(q);
  }

  /** A query that is already trimmed and lower-case is looked up as is:
      the intended lookup finds its own entry or none, and the lookup as
      written crashes on an inherited name. */
  lemma NormalisedQueryResults(q: string)
    requires q != "" && !Text.IsJsSpace(q[0]) && !Text.IsJsSpace(q[|q| - 1])
    requires Text.IsLowered(q)
    ensures FindSubs(q) == Listed(Lookup(q))
    ensures q !in ServedTable && q in InheritedNames ==> FindSubsAsWritten(q) == Crashed
  {
    Text.TrimUnpadded(q);
    Text.LowerFixesLowered(q);
  }

  /** The served lookup ignores case and surrounding white space. */
  lemma FindSubsNormalisesQuery(query: string)
    ensures FindSubs(query) == FindSubs(Text.Lower(Text.Trim(query)))
  {
    NormalisedKeyIsStable(query);
    FindSubsDependsOnKey(query, Text.Lower(Text.Trim(query)));
  }

  /** The served lookup only sees the trimmed, lower-cased query. */
  lemma FindSubsDependsOnKey(a: string, b: string)
    requires Text.Lower(Text.Trim(a)) == Text.Lower(Text.Trim(b))
    ensures FindSubs(a) == FindSubs(b)
  {
    assert |Text.Lower(Text.Trim(a))| == |Text.Trim(a)|;
    assert |Text.Lower(Text.Trim(b))| == |Text.Trim(b)|;
  }

  lemma NormalisedKeyIsStable(query: string)
    ensures var k := Text.Lower(Text.Trim(query));
            Text.Lower(Text.Trim(k)) == k && Text.Trim(k) == k
  {
    var q := Text.Trim(query);
    var k := Text.Lower(q);
    Text.TrimLowerCommute(q);
    Text.TrimIdempotent(query);
    Text.LowerIdempotent(q);
  }

  /** The two clients disagree on "Buttermilk": the served client finds
      the buttermilk entry, the local one the milk entry. */
  lemma ClientsDisagreeOnButtermilk()
    ensures FindSubs("Buttermilk") == Listed(ServedTable["buttermilk"])
    ensures FakeSubstitute("Buttermilk") == LocalTable[0].1
  {
    ButtermilkGetsMilkList();
    ServedButtermilk();
  }

  /** The served client lists the buttermilk entry for "Buttermilk". */
  lemma ServedButtermilk()
    ensures FindSubs("Buttermilk") == Listed(ServedTable["buttermilk"])
  {
    assert FindSubs("Buttermilk") == Listed(Lookup(Text.Lower("Buttermilk"))) by {
      UnpaddedQuery("Buttermilk");
    }
    LowerButtermilk();
    assert "buttermilk" in ServedTable;
  }

  lemma LowerButtermilk()
    ensures Text.Lower("Buttermilk") == "buttermilk"
  {
    var s := Text.Lower("Buttermilk");
    assert s == "buttermilk";
  }

  /** A query without white space at either end is looked up by its
      lower-cased form. */
  lemma UnpaddedQuery(q: string)
    requires q != "" && !Text.IsJsSpace(q[0]) && !Text.IsJsSpace(q[|q| - 1])
    ensures FindSubs(q) == Listed(Lookup(Text.Lower(q)))
  {
    Text.TrimUnpadded(q);
  }
}

=== FILE: text.dfy ===
/** String primitives used by the two JavaScript clients and the Python
    backend: case mapping, substring search, trimming, joining and
    replacement. Case mapping is modelled for ASCII letters only; every
    other character is left unchanged by it. */
module Text {

  predicate IsUpper(c: char) { 'A' <= c <= 'Z' }
  predicate IsLowerLetter(c: char) { 'a' <= c <= 'z' }

  /** The characters that have case: ASCII letters. */
  predicate IsCased(c: char) { IsUpper(c) || IsLowerLetter(c) }

  function LowerChar(c: char): char {
    if IsUpper(c) then (c as int + 32) as char else c
  }

  function UpperChar(c: char): char {
    if IsLowerLetter(c) then (c as int - 32) as char else c
  }

  /** `String.prototype.toLowerCase` / Python `str.lower`. */
  function Lower(s: string): (r: string)
    ensures |r| == |s|
    ensures forall i :: 0 <= i < |s| ==> r[i] == LowerChar(s[i])
  {
    seq(|s|, i requires 0 <= i < |s| => LowerChar(s[i]))
  }

  /** `s` has no upper-case letter, so lower-casing leaves it alone. */
  predicate IsLowered(s: string) {
    forall i :: 0 <= i < |s| ==> !IsUpper(s[i])
  }

  lemma LowerIsLowered(s: string)
    ensures IsLowered(Lower(s))
  {
  }

  lemma LowerFixesLowered(s: string)
    requires IsLowered(s)
    ensures Lower(s) == s
  {
  }

  lemma LowerIdempotent(s: string)
    ensures Lower(Lower(s)) == Lower(s)
  {
    LowerIsLowered(s);
    LowerFixesLowered(Lower(s));
  }

  lemma LowerConcat(a: string, b: string)
    ensures Lower(a + b) == Lower(a) + Lower(b)
  {
  }

  // ---------------------------------------------------------------------
  // Substrings: JavaScript `includes`, Python `in`

  /** `p` occurs in `s` starting at position `i`. */
  predicate OccursAt(s: string, p: string, i: int) {
    0 <= i && i + |p| <= |s| && s[i..i + |p|] == p
  }

  predicate Contains(s: string, p: string) {
    exists i | 0 <= i <= |s| - |p| :: OccursAt(s, p, i)
  }

  /** An occurrence survives lower-casing both sides. */
  lemma OccursAtLower(s: string, p: string, i: int)
    requires OccursAt(s, p, i)
    ensures OccursAt(Lower(s), Lower(p), i)
  {
    assert Lower(s)[i..i + |p|] == Lower(s[i..i + |p|]);
  }

  /** A string containing no copy of `c` contains no pattern starting with `c`. */
  lemma NotContainsWithoutFirstChar(s: string, p: string)
    requires |p| > 0
    requires forall i :: 0 <= i < |s| ==> s[i] != p[0]
    ensures !Contains(s, p)
  {
    forall i | 0 <= i <= |s| - |p|
      ensures !OccursAt(s, p, i)
    {
      assert s[i..i + |p|][0] == s[i] != p[0];
    }
  }

  // ---------------------------------------------------------------------
  // Trimming: `String.prototype.trim`

  /** The white space and line terminators that `trim` removes. */
  predicate IsJsSpace(c: char) {
    var n := c as int;
    n == 0x09 || n == 0x0A || n == 0x0B || n == 0x0C || n == 0x0D || n == 0x20
    || n == 0xA0 || n == 0x1680 || (0x2000 <= n <= 0x200A)
    || n == 0x2028 || n == 0x2029 || n == 0x202F || n == 0x205F
    || n == 0x3000 || n == 0xFEFF
  }

  predicate AllSpace(s: string) {
    forall i :: 0 <= i < |s| ==> IsJsSpace(s[i])
  }

  /** Removes leading white space: the result is a suffix of `s`, what was
      removed is white space, and the result does not start with white space. */
  function TrimStart(s: string): (r: string)
    ensures |r| <= |s| && r == s[|s| - |r|..]
    ensures forall i :: 0 <= i < |s| - |r| ==> IsJsSpace(s[i])
    ensures |r| > 0 ==> !IsJsSpace(r[0])
    decreases |s|
  {
    if |s| > 0 && IsJsSpace(s[0]) then TrimStart(s[1..]) else s
  }

  /** Removes trailing white space: the result is a prefix of `s`, what was
      removed is white space, and the result does not end with white space. */
  function TrimEnd(s: string): (r: string)
    ensures |r| <= |s| && r == s[..|r|]
    ensures AllSpace(s[|r|..])
    ensures |r| > 0 ==> !IsJsSpace(r[|r| - 1])
    decreases |s|
  {
    if |s| > 0 && IsJsSpace(s[|s| - 1]) then TrimEnd(s[..|s| - 1]) else s
  }

  function Trim(s: string): (r: string)
    ensures |r| > 0 ==> !IsJsSpace(r[0]) && !IsJsSpace(r[|r| - 1])
    ensures r == "" <==> AllSpace(s)
  {
    var t := TrimStart(s);
    var r := TrimEnd(t);
    assert r == "" ==> AllSpace(s) by {
      if r == "" {
        assert s == s[..|s| - |t|] + t;
      }
    }
    r
  }

  /** A string without white space at either end is left alone by `trim`. */
  lemma TrimUnpadded(s: string)
    requires |s| > 0 ==> !IsJsSpace(s[0]) && !IsJsSpace(s[|s| - 1])
    ensures Trim(s) == s
  {
    assert TrimStart(s) == s;
    assert TrimEnd(s) == s;
  }

  /** Trimming twice is trimming once. */
  lemma TrimIdempotent(s: string)
    ensures Trim(Trim(s)) == Trim(s)
  {
    var r := Trim(s);
    assert TrimStart(r) == r;
    assert TrimEnd(r) == r;
  }

  /** Trimming and lower-casing commute: case mapping never makes or
      unmakes white space. */
  lemma TrimLowerCommute(s: string)
    ensures Trim(Lower(s)) == Lower(Trim(s))
  {
    TrimStartLower(s);
    TrimEndLower(TrimStart(s));
  }

  /** Lower-casing neither makes nor removes white space. */
  lemma LowerKeepsSpace(c: char)
    ensures IsJsSpace(LowerChar(c)) == IsJsSpace(c)
  {
  }

  lemma LowerTail(s: string)
    requires |s| > 0
    ensures Lower(s)[1..] == Lower(s[1..])
  {
    assert |Lower(s)[1..]| == |Lower(s[1..])|;
    forall i | 0 <= i < |s| - 1 ensures Lower(s)[1..][i] == Lower(s[1..])[i] {
      assert Lower(s)[1..][i] == Lower(s)[i + 1];
    }
  }

  lemma TrimStartLower(s: string)
    ensures TrimStart(Lower(s)) == Lower(TrimStart(s))
    decreases |s|
  {
    if |s| > 0 {
      LowerKeepsSpace(s[0]);
      assert Lower(s)[0] == LowerChar(s[0]);
      if IsJsSpace(s[0]) {
        LowerTail(s);
        TrimStartLower(s[1..]);
      }
    }
  }

  lemma TrimEndLower(s: string)
    ensures TrimEnd(Lower(s)) == Lower(TrimEnd(s))
    decreases |s|
  {
    if |s| > 0 && IsJsSpace(s[|s| - 1]) {
      assert Lower(s)[..|s| - 1] == Lower(s[..|s| - 1]);
      TrimEndLower(s[..|s| - 1]);
    }
  }

  // ---------------------------------------------------------------------
  // Joining: `Array.prototype.join` / Python `str.join`

  function Join(xs: seq<string>, sep: string): string
    decreases |xs|
  {
    if |xs| == 0 then ""
    else if |xs| == 1 then xs[0]
    else xs[0] + sep + Join(xs[1..], sep)
  }

  // ---------------------------------------------------------------------
  // Replacement: Python `str.replace(pat, rep)` with a non-empty pattern,
  // which rewrites every non-overlapping occurrence, left to right.

  function Replace(s: string, pat: string, rep: string): string
    requires |pat| > 0
    decreases |s|
  {
    if |s| < |pat| then s
    else if s[..|pat|] == pat then rep + Replace(s[|pat|..], pat, rep)
    else [s[0]] + Replace(s[1..], pat, rep)
  }

  /** Replacing a pattern that does not occur changes nothing. */
  lemma {:induction false} ReplaceAbsent(s: string, pat: string, rep: string)
    requires |pat| > 0
    requires !Contains(s, pat)
    ensures Replace(s, pat, rep) == s
    decreases |s|
  {
    if |s| >= |pat| {
      assert !OccursAt(s, pat, 0);
      if !Contains(s[1..], pat) {
        ReplaceAbsent(s[1..], pat, rep);
      } else {
        var i :| 0 <= i <= |s[1..]| - |pat| && OccursAt(s[1..], pat, i);
        assert s[i + 1..i + 1 + |pat|] == s[1..][i..i + |pat|];
        assert OccursAt(s, pat, i + 1);
        assert false;
      }
    }
  }

  /** A leading stretch that cannot start the pattern passes through unchanged. */
  lemma {:induction false} ReplaceSkipsPrefix(a: string, b: string, pat: string, rep: string)
    requires |pat| > 0
    requires forall i :: 0 <= i < |a| ==> a[i] != pat[0]
    ensures Replace(a + b, pat, rep) == a + Replace(b, pat, rep)
    decreases |a|
  {
    if |a| > 0 {
      var s := a + b;
      assert s[0] == a[0];
      assert s[1..] == a[1..] + b;
      ReplaceSkipsPrefix(a[1..], b, pat, rep);
      if |s| < |pat| {
        assert Replace(b, pat, rep) == b;
        assert Replace(s, pat, rep) == s;
      } else {
        assert s[..|pat|] != pat by {
          assert s[..|pat|][0] == a[0];
        }
        var rb := Replace(b, pat, rep);
        calc {
          Replace(s, pat, rep);
          [a[0]] + Replace(a[1..] + b, pat, rep);
          [a[0]] + (a[1..] + rb);
          ([a[0]] + a[1..]) + rb;
          { assert [a[0]] + a[1..] == a; }
          a + rb;
        }
      }
    } else {
      assert a + b == b;
    }
  }

  /** `s.replace(a, b)` for single characters rewrites character by character. */
  function MapChar(s: string, a: char, b: char): (r: string)
    ensures |r| == |s|
    ensures forall i :: 0 <= i < |s| ==> r[i] == if s[i] == a then b else s[i]
  {
    seq(|s|, i requires 0 <= i < |s| => if s[i] == a then b else s[i])
  }

  lemma {:induction false} ReplaceOneChar(s: string, a: char, b: char)
    ensures Replace(s, [a], [b]) == MapChar(s, a, b)
    decreases |s|
  {
    if |s| > 0 {
      ReplaceOneChar(s[1..], a, b);
      assert MapChar(s, a, b) == MapChar([s[0]], a, b) + MapChar(s[1..], a, b);
    }
  }

  /** Rewriting `a` to `b` and back restores a string without `b`. */
  lemma MapCharUndo(s: string, a: char, b: char)
    requires forall i :: 0 <= i < |s| ==> s[i] != b
    ensures MapChar(MapChar(s, a, b), b, a) == s
  {
  }

  /** Rewriting a character without case commutes with lower-casing. */
  lemma LowerMapCharCommute(s: string, a: char, b: char)
    requires !IsCased(a) && !IsCased(b)
    ensures Lower(MapChar(s, a, b)) == MapChar(Lower(s), a, b)
  {
  }

  // ---------------------------------------------------------------------
  // Python `str.title`: a cased character is upper-cased when the character
  // before it is not cased, and lower-cased otherwise.

  function TitleFrom(s: string, afterCased: bool): (r: string)
    ensures |r| == |s|
    decreases |s|
  {
    if s == [] then []
    else
      [if afterCased then LowerChar(s[0]) else UpperChar(s[0])]
      + TitleFrom(s[1..], IsCased(s[0]))
  }

  function Title(s: string): (r: string)
    ensures |r| == |s|
  {
    TitleFrom(s, false)
  }

  /** Whether the character before position `i` is cased. */
  function CasedBefore(s: string, afterCased: bool, i: int): bool
    requires 0 <= i <= |s|
  {
    if i == 0 then afterCased else IsCased(s[i - 1])
  }

  /** Title-casing, one position at a time. */
  lemma {:induction false} TitleAt(s: string, afterCased: bool, i: int)
    requires 0 <= i < |s|
    ensures TitleFrom(s, afterCased)[i]
            == if CasedBefore(s, afterCased, i) then LowerChar(s[i]) else UpperChar(s[i])
    decreases i
  {
    if i > 0 {
      TitleAt(s[1..], IsCased(s[0]), i - 1);
    }
  }

  /** Title-casing leaves characters without case where they are. */
  lemma TitleKeepsUncased(s: string, afterCased: bool, i: int, c: char)
    requires 0 <= i < |s|
    requires !IsCased(c)
    ensures TitleFrom(s, afterCased)[i] == c <==> s[i] == c
  {
    TitleAt(s, afterCased, i);
  }

  /** Title-casing only depends on the letters, not on their case. */
  lemma TitleIgnoresCase(s: string, afterCased: bool)
    ensures TitleFrom(Lower(s), afterCased) == TitleFrom(s, afterCased)
  {
    forall i | 0 <= i < |s|
      ensures TitleFrom(Lower(s), afterCased)[i] == TitleFrom(s, afterCased)[i]
    {
      TitleAt(s, afterCased, i);
      TitleAt(Lower(s), afterCased, i);
    }
  }

  /** Lower-casing undoes title-casing. */
  lemma LowerOfTitle(s: string, afterCased: bool)
    ensures Lower(TitleFrom(s, afterCased)) == Lower(s)
  {
    forall i | 0 <= i < |s|
      ensures Lower(TitleFrom(s, afterCased))[i] == Lower(s)[i]
    {
      TitleAt(s, afterCased, i);
    }
  }

  /** Rewriting one character without case into another commutes with
      title-casing. */
  lemma TitleMapCharCommute(s: string, afterCased: bool, a: char, b: char)
    requires !IsCased(a) && !IsCased(b)
    ensures TitleFrom(MapChar(s, a, b), afterCased) == MapChar(TitleFrom(s, afterCased), a, b)
  {
    var m := MapChar(s, a, b);
    forall i | 0 <= i < |s|
      ensures TitleFrom(m, afterCased)[i] == MapChar(TitleFrom(s, afterCased), a, b)[i]
    {
      TitleAt(s, afterCased, i);
      TitleAt(m, afterCased, i);
      assert CasedBefore(m, afterCased, i) == CasedBefore(s, afterCased, i);
    }
  }
}

=== FILE: voice_api.dfy ===
/** The voice assistant: the backend's `POST /api/voice` route
    (cookmate-backend/app.py), which answers a transcript by keyword, and
    what the served client (cookmate-backend/static/app.js) speaks back. */
module Voice {
  import opened Base
  import opened Seqs
  import Text
  import Numerals
  import RecipeApi

  const HelpText: string :=
    "I can help you find recipes. Try saying 'show me recipes' or ask about a specific dish like tea or biryani."

  /** Which branch of the route answers a lower-cased transcript; the
      keywords are tried in this order and the first one found wins. */
  datatype Intent = ListAll | AskTea | AskBiryani | Help

  /** The route's answer: a JSON reply, or an internal error when a field
      it indexes is missing from a document (a `KeyError`). */
  datatype VoiceReply = Reply(text: string) | ServerError

  function Classify(t: string): (i: Intent)
    ensures i == ListAll <==> Text.Contains(t, "recipe") || Text.Contains(t, "show")
    ensures i == AskTea
            <==> !Text.Contains(t, "recipe") && !Text.Contains(t, "show") && Text.Contains(t, "tea")
    ensures i == AskBiryani
            <==> !Text.Contains(t, "recipe") && !Text.Contains(t, "show") && !Text.Contains(t, "tea")
                 && Text.Contains(t, "biryani")
  {
    if Text.Contains(t, "recipe") || Text.Contains(t, "show") then ListAll
    else if Text.Contains(t, "tea") then AskTea
    else if Text.Contains(t, "biryani") then AskBiryani
    else Help
  }

  /** The stored names, in order, or `None` when some document has none. */
  function AllNames(docs: seq<RecipeApi.RecipeDoc>): (names: Option<seq<string>>)
    ensures names.Some? <==> forall j :: 0 <= j < |docs| ==> docs[j].name.Some?
    ensures names.Some? ==> |names.value| == |docs|
    ensures names.Some? ==> forall j :: 0 <= j < |docs| ==> names.value[j] == docs[j].name.value
    decreases |docs|
  {
    if docs == [] then Some([])
    else if docs[0].name.None? then None
    else match AllNames(docs[1..])
      case None => None
      case Some(rest) => Some([docs[0].name.value] + rest)
  }

  /** A time as an f-string renders it. */
  function TimeText(t: RecipeApi.TimeValue): string {
    match t
    case TimeText(s) => s
    case TimeNumber(m) => Numerals.IntToString(m)
  }

  /** `k` is the first document whose name is exactly `name`: the one
      `find_one({"name": name})` returns. */
  predicate FirstNamed(docs: seq<RecipeApi.RecipeDoc>, name: string, k: int) {
    0 <= k < |docs| && docs[k].name == Some(name)
    && forall j :: 0 <= j < k ==> docs[j].name != Some(name)
  }

  /** The answer about one named dish: the help text if no document has
      that name, an error if its time or ingredients are missing, and
      otherwise the time and the first three ingredients. */
  function DishReply(docs: seq<RecipeApi.RecipeDoc>, name: string, intro: string, middle: string)
    : (r: VoiceReply)
    ensures (forall j :: 0 <= j < |docs| ==> docs[j].name != Some(name)) ==> r == Reply(HelpText)
    ensures r.Reply? ==> r.text == HelpText || (|r.text| >= |intro| && r.text[..|intro|] == intro)
    ensures forall k :: FirstNamed(docs, name, k)
              ==> (r.ServerError? <==> docs[k].time.None? || docs[k].ingredients.None?)
                  && (r.Reply? ==> r.text == intro + TimeText(docs[k].time.value) + middle
                                            + Text.Join(Take(docs[k].ingredients.value, 3), ", "))
  {
    match RecipeApi.FindFirst(docs, (d: RecipeApi.RecipeDoc) => d.name == Some(name))
    case None => Reply(HelpText)
    case Some(k) =>
      var d := docs[k];
      if d.time.None? || d.ingredients.None? then ServerError
      else Reply(intro + TimeText(d.time.value) + middle + Text.Join(Take(d.ingredients.value, 3), ", "))
  }

  /** `POST /api/voice` for a body whose `text` field is `text` (absent
      counts as ""). */
  function VoiceCommand(docs: seq<RecipeApi.RecipeDoc>, text: Option<string>): (r: VoiceReply)
    ensures Classify(Text.Lower(text.GetOr(""))) == Help ==> r == Reply(HelpText)
    ensures Classify(Text.Lower(text.GetOr(""))) == ListAll
            ==> (r.ServerError? <==> exists j :: 0 <= j < |docs| && docs[j].name.None?)
    ensures Classify(Text.Lower(text.GetOr(""))) == ListAll && r.Reply?
            ==> r.text == "I found " + Numerals.NatToString(|docs|) + " recipes: "
                          + Text.Join(AllNames(docs).value, ", ")
    ensures Classify(Text.Lower(text.GetOr(""))) == AskTea
            ==> r == DishReply(docs, "Tea", "Tea recipe: Cook for ", ". Ingredients: ")
    ensures Classify(Text.Lower(text.GetOr(""))) == AskBiryani
            ==> r == DishReply(docs, "Chicken Biryani", "Chicken Biryani: Takes ", ". Main ingredients are ")
  {
    var t := Text.Lower(text.GetOr(""));
    match Classify(t)
    case ListAll =>
      (match AllNames(docs)
       case None => ServerError
       case Some(names) =>
         Reply("I found " + Numerals.NatToString(|names|) + " recipes: " + Text.Join(names, ", ")))
    case AskTea => DishReply(docs, "Tea", "Tea recipe: Cook for ", ". Ingredients: ")
    case AskBiryani =>
      DishReply(docs, "Chicken Biryani", "Chicken Biryani: Takes ", ". Main ingredients are ")
    case Help => Reply(HelpText)
  }

  // ---------------------------------------------------------------------
  // The served client

  const NotUnderstood: string := "Sorry, I did not understand that."
  const RequestFailed: string := "Sorry, there was an error processing your request."

  /** What the client speaks for the route's answer: the reply, or its
      fallback text for an empty reply; an error answer is not JSON, so
      reading it throws and the error text is spoken. */
  function SpokenReply(r: VoiceReply): (spoken: string)
    ensures r.ServerError? ==> spoken == RequestFailed
    ensures r.Reply? && r.text != "" ==> spoken == r.text
    ensures r == Reply("") ==> spoken == NotUnderstood
  {
    match r
    case ServerError => RequestFailed
    case Reply(t) => if t == "" then NotUnderstood else t
  }

  // ---------------------------------------------------------------------
  // Properties

  /** Every successful answer is non-empty, so the client speaks it as
      given and never falls back to "did not understand". */
  lemma RepliesAreNeverEmpty(docs: seq<RecipeApi.RecipeDoc>, text: Option<string>)
    ensures VoiceCommand(docs, text).Reply? ==> VoiceCommand(docs, text).text != ""
    ensures VoiceCommand(docs, text).Reply?
            ==> SpokenReply(VoiceCommand(docs, text)) == VoiceCommand(docs, text).text
  {
    var r := VoiceCommand(docs, text);
    if r.Reply? && r.text != HelpText {
      assert |r.text| > 0 by {
        match Classify(Text.Lower(text.GetOr("")))
        case ListAll =>
        case AskTea => assert |r.text| >= |"Tea recipe: Cook for "|;
        case AskBiryani => assert |r.text| >= |"Chicken Biryani: Takes "|;
        case Help =>
      }
    }
  }

  /** The route ignores the case of the transcript. */
  lemma VoiceIgnoresCase(docs: seq<RecipeApi.RecipeDoc>, t: string)
    ensures VoiceCommand(docs, Some(t)) == VoiceCommand(docs, Some(Text.Lower(t)))
  {
    Text.LowerIdempotent(t);
  }

  /** Asking about tea when no document is named "Tea" gets the help text. */
  lemma TeaWithoutRecipeGetsHelp(docs: seq<RecipeApi.RecipeDoc>, t: string)
    requires Classify(Text.Lower(t)) == AskTea
    requires forall j :: 0 <= j < |docs| ==> docs[j].name != Some("Tea")
    ensures VoiceCommand(docs, Some(t)) == Reply(HelpText)
  {
  }

  /** The keyword test is a substring test: "steak" asks about tea. */
  lemma SteakAsksAboutTea()
    ensures Classify("steak") == AskTea
  {
    assert Text.OccursAt("steak", "tea", 1);
    Text.NotContainsWithoutFirstChar("steak", "recipe");
    assert "steak"[0] == 's' && "steak"[1] == 't';
    assert !Text.OccursAt("steak", "show", 0) by {
      assert "steak"[0..4][1] != "show"[1];
    }
  }

  /** The tea answer names the time and at most the first three
      ingredients of the first document named "Tea". */
  lemma TeaAnswer(docs: seq<RecipeApi.RecipeDoc>, t: string, k: nat)
    requires Classify(Text.Lower(t)) == AskTea
    requires k < |docs| && docs[k].name == Some("Tea")
    requires forall j :: 0 <= j < k ==> docs[j].name != Some("Tea")
    requires docs[k].time.Some? && docs[k].ingredients.Some?
    ensures VoiceCommand(docs, Some(t))
            == Reply("Tea recipe: Cook for " + TimeText(docs[k].time.value) + ". Ingredients: "
                     + Text.Join(Take(docs[k].ingredients.value, 3), ", "))
  {
    assert FirstNamed(docs, "Tea", k);
  }

  /** The biryani answer names the time and at most the first three
      ingredients of the first document named "Chicken Biryani"; if that
      document lacks either field, the route fails. */
  lemma BiryaniAnswer(docs: seq<RecipeApi.RecipeDoc>, t: string, k: nat)
    requires Classify(Text.Lower(t)) == AskBiryani
    requires FirstNamed(docs, "Chicken Biryani", k)
    ensures VoiceCommand(docs, Some(t)).ServerError?
            <==> docs[k].time.None? || docs[k].ingredients.None?
    ensures docs[k].time.Some? && docs[k].ingredients.Some?
            ==> VoiceCommand(docs, Some(t))
                == Reply("Chicken Biryani: Takes " + TimeText(docs[k].time.value)
                         + ". Main ingredients are "
                         + Text.Join(Take(docs[k].ingredients.value, 3), ", "))
  {
    assert FirstNamed(docs, "Chicken Biryani", k);
  }
}
